=== FILE: README.md ===
# SteamChatBot trigger core, in Dafny

SteamChatBot is a Steam chat bot. Its behaviour comes from *triggers*.
Each trigger is a `BaseTrigger` subclass with a tag (`TriggerType`), a
name, an options record (`TriggerOptions`) and a `ReplyEnabled` cooldown
flag. The bot delivers every Steam event to every trigger through an
`On*` dispatcher. The dispatcher checks the trigger's admission guards
and then calls an overridable `respondTo*` hook inside a `try`. After a
successful reply it may disable the trigger; the timer meant to
re-enable it is never started.

This project models that core as written:

- the guards `CheckIgnores`, `CheckRoom`, `CheckUser` and `RandomRoll`;
- `StripCommand`, and the immediate branch of `SendMessageAfterDelay`;
- the cooldown (`DisableForTimeout`, `AfterTimer_Timeout`);
- all seventeen `On*` dispatchers, including their exception behaviour;
- the default hooks;
- the path and name logic of `SaveTrigger` and `ReadTriggers`;
- `UnbanTrigger`, the one concrete trigger in the core.

C# `null` is modelled as `Option.None`. A `NullReferenceException` either
escapes (`Outcome.Raised`) or is caught by the handler's `try` and becomes
`false`, according to where the source dereferences the options.
Steam calls become `Hooks.Action` values. The hooks of other concrete
triggers are a parameter (`strategy`).

The model follows the code, quirks included:

- `CheckRoom` admits every room, whitelist or not.
- `new Random().Next(0, 1)` always draws 0, so `RandomRoll` fails only
  for a negative probability.
- The timers are built and never started, so no timer callback ever
  runs. A delayed message is never sent, and a trigger that replies
  with a positive timeout stays disabled for good. The expiry callback
  is still modelled (`Cooldown.AfterTimerTimeout`), as an event that the
  program itself never produces.
- A negative delay, or one of 1 to 999 ms, makes
  `new Timer(Delay / 1000)` throw.
- `OnBannedChat` always answers `false`.
- `OnLeftChat` calls `respondToEnteredMessage`.
- `OnTradeProposed` and `OnAnnouncement` require the id to be on the
  ignore list.
- `OnChatMessage`'s rejection log re-evaluates the guards, so it raises
  on a null options record even when replies are disabled.
- The command match is a raw, case-insensitive prefix test.

## Model

| member | source | states |
|---|---|---|
| Guards.Scan | SteamChatBot_Mono/Triggers/BaseTrigger.cs:793-801 | the `for` loop over a whitelist finds an id exactly when it is a member |
| Guards.ScanIgnores | SteamChatBot_Mono/Triggers/BaseTrigger.cs:756-764 | the ignore loop matches exactly when the target or the (non-null) sender is on the list |
| Guards.CheckIgnores | SteamChatBot_Mono/Triggers/BaseTrigger.cs:752-767 | true iff either identifier is on the ignore list; a null or empty list ignores nobody |
| Guards.CheckRoom | SteamChatBot_Mono/Triggers/BaseTrigger.cs:769-787 | every room is admitted, whatever the room whitelist holds |
| Guards.CheckUser | SteamChatBot_Mono/Triggers/BaseTrigger.cs:789-804 | admits everyone when the user whitelist is null or empty, otherwise exactly its members |
| Guards.RandomRoll | SteamChatBot_Mono/Triggers/BaseTrigger.cs:806-817 | with the draw fixed at 0, the roll passes iff no probability is set or it is non-negative |
| Commands.StripCommand | SteamChatBot_Mono/Triggers/BaseTrigger.cs:742-749 | non-null iff both strings are non-null and the lower-cased command prefixes the lower-cased message; then the tokens are space-free and join back to the message |
| Commands.IndexOfZero | SteamChatBot_Mono/Triggers/BaseTrigger.cs:744 | `IndexOf(pat) == 0` holds exactly when `pat` is a prefix |
| Commands.CommandIsFirstToken | SteamChatBot_Mono/Triggers/BaseTrigger.cs:744-746 | a space-free command is (case aside) a prefix of the first token |
| Commands.CommandPrefixMatches | SteamChatBot_Mono/Triggers/BaseTrigger.cs:744-746 | a message that begins with the command always matches and is split on spaces |
| Commands.PrefixMatchesLongerWord | SteamChatBot_Mono/Triggers/BaseTrigger.cs:744 | `!unbanned x` matches the command `!unban`, because the test is a raw prefix test |
| Text.IndexOfFrom | SteamChatBot_Mono/Triggers/BaseTrigger.cs:96-97 | the first occurrence at or after the start, or -1 when there is none |
| Text.JoinSplit | SteamChatBot_Mono/Triggers/BaseTrigger.cs:746 | joining the tokens of `Split(' ')` gives back the message |
| Text.SplitTokensNoSep | SteamChatBot_Mono/Triggers/BaseTrigger.cs:746 | no token of `Split(' ')` contains a space |
| Text.SplitSingle | SteamChatBot_Mono/Triggers/BaseTrigger.cs:746 | the split has exactly one token iff the message has no space, and that token is the whole message |
| Text.SplitJoin | SteamChatBot_Mono/Triggers/BaseTrigger.cs:746 | splitting a join of at least one space-free token gives back those tokens |
| Text.ParseU64 | SteamChatBot_Mono/Triggers/UnbanTrigger.cs:26 | `Convert.ToUInt64`: once the surrounding white space and one sign are removed, a token whose rest is a non-empty run of digits below 2^64, not negated unless zero, is accepted, and an accepted token's rest is such a run and gives its value |
| Text.IndexOfChar | SteamChatBot_Mono/Triggers/BaseTrigger.cs:97-100 | a one-character `IndexOf` answers the first position holding the character, or -1 when none does |
| Text.TrimStartSuffix | SteamChatBot_Mono/Triggers/UnbanTrigger.cs:26 | trimming leading white space removes only white space and leaves a suffix that does not start with white space |
| Text.TrimEndPrefix | SteamChatBot_Mono/Triggers/UnbanTrigger.cs:26 | trimming trailing white space removes only white space and leaves a prefix that does not end with white space |
| NumeralLaws.ParsePadded | SteamChatBot_Mono/Triggers/UnbanTrigger.cs:26 | `05`, a tab then `5`, and `5` then a tab all read as 5 |
| Text.Split | SteamChatBot_Mono/Triggers/BaseTrigger.cs:746 | `Split(' ')` never yields an empty array; with `JoinSplit` and `SplitTokensNoSep` its tokens are the space-free runs that join back to the message |
| Text.Lower | SteamChatBot_Mono/Triggers/BaseTrigger.cs:744 | `ToLower` keeps the length and lower-cases each letter in place |
| NumeralLaws.ParseOverflow | SteamChatBot_Mono/Triggers/UnbanTrigger.cs:26 | the numeral of every number of 2^64 or more is rejected (`OverflowException`) |
| NumeralLaws.ParseNegative | SteamChatBot_Mono/Triggers/UnbanTrigger.cs:26 | a minus sign before digits is accepted on zero and rejected on every other value |
| NumeralLaws.ParsePositive | SteamChatBot_Mono/Triggers/UnbanTrigger.cs:26 | a plus sign before digits is skipped: the value is accepted iff it is below 2^64 |
| Text.ParseNeedsDigit | SteamChatBot_Mono/Triggers/UnbanTrigger.cs:26 | a token with no decimal digit, the empty token included, is rejected |
| Text.DecimalTextValue | SteamChatBot_Mono/Triggers/UnbanTrigger.cs:26 | the digits of a decimal numeral read back as its value |
| Text.ParseDecimalText | SteamChatBot_Mono/Triggers/UnbanTrigger.cs:26 | the decimal numeral of every `ulong` parses back to it |
| Cooldown.DisableForTimeout | SteamChatBot_Mono/Triggers/BaseTrigger.cs:819-828 | raises iff the options are null; a positive timeout clears the flag, and otherwise the flag is kept |
| Cooldown.AfterTimerTimeout | SteamChatBot_Mono/Triggers/BaseTrigger.cs:830-834 | the expiry callback re-enables replies and changes nothing else |
| DelayedSend.SendMessageAfterDelay | SteamChatBot_Mono/Triggers/BaseTrigger.cs:707-728 | sends at once, to a room or to a user, iff no delay is set; raises iff the options are null or the delay is non-zero and under 1000 ms; otherwise an idle timer is built whose interval is the delay divided by 1000, in whole units, and nothing is sent |
| Hooks.BaseHook | SteamChatBot_Mono/Triggers/BaseTrigger.cs:603-695 | the default hooks perform nothing; they answer true exactly for the three lifecycle hooks |
| Dispatch.HandlerFor | SteamChatBot_Mono/Triggers/BaseTrigger.cs:168-598 | the seven reply handlers, and only they, test `ReplyEnabled`, and each then rolls first among at least two operands; the seven other handlers have no operand at all; only `OnBannedChat` discards the hook's answer and only `OnChatMessage` logs its rejection |
| Dispatch.EvalGuards | SteamChatBot_Mono/Triggers/BaseTrigger.cs:168-598 | a handler's condition raises iff it gets past the `ReplyEnabled` test to an options-reading operand with null options; a disabled reply handler is false without reading the options; a true condition means the flag test and the first operand passed |
| Dispatch.Invoke | SteamChatBot_Mono/Triggers/BaseTrigger.cs:439-453 | the `try` block: a throwing hook gives false; only a hook's `true` can make the handler answer true; only the flag changes |
| Dispatch.Deliver | SteamChatBot_Mono/Triggers/BaseTrigger.cs:168-598 | one event to one trigger: only the flag can change, and it is never re-enabled; with no hook call nothing happens and the answer is not true; the actions are the hook's |
| DispatchLaws.GuardsMatchAdmits | SteamChatBot_Mono/Triggers/BaseTrigger.cs:231-598 | each handler's guard list evaluates to the handler's own `if` conjunction |
| DispatchLaws.AllHoldIsEvery | SteamChatBot_Mono/Triggers/BaseTrigger.cs:437 | the short-circuit `&&` chain holds exactly when every operand does |
| DispatchLaws.AdmissionIsGuardConjunction | SteamChatBot_Mono/Triggers/BaseTrigger.cs:231-598 | with non-null options the hook is called iff the handler's condition holds, and nothing raises |
| DispatchLaws.ChatMessageAdmission | SteamChatBot_Mono/Triggers/BaseTrigger.cs:435-460 | `OnChatMessage` calls its hook iff replies are enabled, the probability is unset or non-negative, the chatter is whitelisted or there is no whitelist, and neither chatter nor room is ignored |
| DispatchLaws.RoomWhitelistHasNoEffect | SteamChatBot_Mono/Triggers/BaseTrigger.cs:769-787 | replacing the room whitelist changes no handler's answer, actions, hook call or flag |
| DispatchLaws.DisabledSuppressesReplies | SteamChatBot_Mono/Triggers/BaseTrigger.cs:273-598 | while the flag is off, no `ReplyEnabled`-gated handler calls its hook; only `OnChatMessage` with null options raises, from its rejection log |
| DispatchLaws.UnguardedHandlersAlwaysCall | SteamChatBot_Mono/Triggers/BaseTrigger.cs:168-425 | the handlers without a condition always call their hook, answer its result and leave the trigger as it was |
| DispatchLaws.HookExceptionYieldsFalse | SteamChatBot_Mono/Triggers/BaseTrigger.cs:449-453 | a throwing hook makes the handler answer false, with no cooldown |
| DispatchLaws.HandledIffHookSucceeded | SteamChatBot_Mono/Triggers/BaseTrigger.cs:528-547 | a handler answers true iff it called its hook, the hook answered true, and it is not `OnBannedChat` |
| DispatchLaws.CooldownTransition | SteamChatBot_Mono/Triggers/BaseTrigger.cs:442-446 | the flag ends up off iff it was off, or a gated handler's hook succeeded with a positive timeout |
| DispatchLaws.LeftChatCallsEnteredHook | SteamChatBot_Mono/Triggers/BaseTrigger.cs:578-598 | `OnLeftChat` calls `respondToEnteredMessage`; no handler calls `respondToLeftMessage` |
| DispatchLaws.NullOptionsBehaviour | SteamChatBot_Mono/Triggers/BaseTrigger.cs:168-598 | with null options only the unconditional handlers call their hook, and a handler raises iff its condition reaches an options-reading guard |
| DispatchLaws.CooldownCycle | SteamChatBot_Mono/Triggers/BaseTrigger.cs:819-834 | a successful chat reply with a positive timeout disables the trigger, so the same message is refused; after expiry it is handled exactly as the first time |
| Unban.Respond | SteamChatBot_Mono/Triggers/UnbanTrigger.cs:21-30 | answers false with no action iff the options are non-null and the command does not match; answering true means the command matched, the message has a second word, and exactly one unban is performed, in the message's room, of the id that word parses to; conversely a matched message whose second word parses unbans that id and answers true, whatever follows; every other path throws with no action |
| Unban.UnbanHooks | SteamChatBot_Mono/Triggers/UnbanTrigger.cs:16-19 | only `respondToChatMessage` is overridden, and it calls `Respond`; every other hook is the default |
| Unban.DeliverToUnban | SteamChatBot_Mono/Triggers/UnbanTrigger.cs:16-30 | an event delivered to an `UnbanTrigger` performs at most one action: an unban in the room of a chat message, and only when the answer is true |
| Unban.UnbanByCommand | SteamChatBot_Mono/Triggers/UnbanTrigger.cs:23-27 | the command, a space and the numeral of an id unbans exactly that id in the message's room |
| Unban.OneWordThrows | SteamChatBot_Mono/Triggers/UnbanTrigger.cs:24 | a matching message with no second word makes `query[1]` throw |
| Unban.BadIdThrows | SteamChatBot_Mono/Triggers/UnbanTrigger.cs:26 | a second word that is not a `ulong` makes the hook throw |
| Unban.ThrowingRespondIsNotHandled | SteamChatBot_Mono/Triggers/BaseTrigger.cs:449-453 | through `OnChatMessage`, a throwing `Respond` answers false with no unban and no cooldown |
| Unban.OtherEventsUseBaseHooks | SteamChatBot_Mono/Triggers/UnbanTrigger.cs:16-19 | every other event sends nothing, and only the lifecycle events answer true |
| Unban.AdmittedUnban | SteamChatBot_Mono/Triggers/BaseTrigger.cs:435-447 | an admitted chat message whose `Respond` unbans answers true, performs that one unban, and engages the cooldown |
| Unban.UnbanScenario | SteamChatBot_Mono/Triggers/UnbanTrigger.cs:16-30 | `!unban 76561197960287930` with every guard passing unbans that id in the room and answers true |
| TriggerKinds.ParseTag | SteamChatBot_Mono/Triggers/BaseTrigger.cs:100 | `Enum.Parse`: a member name gives that member; a numeral gives the member with that value below 18, an undefined tag from 18 up to 2^31, and an exception beyond; anything else throws |
| TriggerKinds.CandidateOfName | SteamChatBot/Triggers/TriggerType.cs:3-23 | every member name selects its own member, so names are pairwise distinct, and none starts with a digit |
| TriggerKinds.ParseTypeName | SteamChatBot/Triggers/TriggerType.cs:3-23 | every member's name parses back to that member |
| Config.NewDefaultTrigger | SteamChatBot_Mono/Triggers/BaseTrigger.cs:24-29 | the two-argument constructor: the given tag and name, a fresh default options record, replies enabled |
| Config.NewTrigger | SteamChatBot_Mono/Triggers/BaseTrigger.cs:31-36 | the three-argument constructor: the given tag, name and options, replies enabled |
| Persistence.SavedRecord | SteamChatBot_Mono/Triggers/BaseTrigger.cs:64-87 | the record written is a field-by-field copy of the options, or a default record when they are null |
| Persistence.SaveTrigger | SteamChatBot_Mono/Triggers/BaseTrigger.cs:57-88 | overwrites the trigger's own record path and leaves every other record as it was |
| Persistence.TriggerPath | SteamChatBot_Mono/Triggers/BaseTrigger.cs:80 | the user name, a `/`, `triggers/`, the trigger name and `.json`, in that order |
| Persistence.LoadOne | SteamChatBot_Mono/Triggers/BaseTrigger.cs:95-156 | one record aborts the read iff its name cut or its tag parse throws; it is skipped iff the tag is undefined or `PlayGameTrigger`; a trigger it builds carries the cut name and a tag its text parses to |
| Persistence.ReadOne | SteamChatBot_Mono/Triggers/BaseTrigger.cs:90-159 | a listing of one record gives that record's outcome |
| Persistence.ExtractName | SteamChatBot_Mono/Triggers/BaseTrigger.cs:96-98 | the cut starts just after the first `triggers/` (at 8 when there is none) and succeeds iff that start is within the path and a dot follows it; the name is the text from the start up to the first such dot |
| Persistence.TagText | SteamChatBot_Mono/Triggers/BaseTrigger.cs:100 | the suffix of the name after its first `/`, or the whole name when it has none |
| Persistence.Construct | SteamChatBot_Mono/Triggers/BaseTrigger.cs:101-156 | every tag but `PlayGameTrigger` builds a trigger, and `PlayGameTrigger` is skipped; the trigger has its name, is enabled and has the loaded options, except that `AcceptFriendRequestTrigger` gets default options |
| Persistence.LoadedOf | SteamChatBot_Mono/Triggers/BaseTrigger.cs:94-157 | the triggers the records build: at most one per record, each built by some record, and every built trigger present |
| Persistence.LoadedOfAppend | SteamChatBot_Mono/Triggers/BaseTrigger.cs:94-157 | listing order is kept: the triggers of two consecutive runs of records are those of the first followed by those of the second |
| Persistence.LoadedOfOne | SteamChatBot_Mono/Triggers/BaseTrigger.cs:101-156 | one record contributes its trigger when it builds one, and nothing when it is skipped |
| Persistence.Collect | SteamChatBot_Mono/Triggers/BaseTrigger.cs:94-158 | the loop fails iff some record throws; otherwise it returns exactly the triggers built, in listing order |
| Persistence.ReadTriggers | SteamChatBot_Mono/Triggers/BaseTrigger.cs:90-159 | fails iff some listed record throws; otherwise exactly the triggers the records build, in listing order, each enabled, with options, and never a `PlayGameTrigger` |
| Persistence.LoadedShapes | SteamChatBot_Mono/Triggers/BaseTrigger.cs:101-156 | every trigger the records build is enabled, has options and is not a `PlayGameTrigger` |
| Persistence.MarkerFirstAt | SteamChatBot_Mono/Triggers/BaseTrigger.cs:96 | in a saved path under a plain user name, the first `triggers/` is the directory's |
| Persistence.ExtractSavedName | SteamChatBot_Mono/Triggers/BaseTrigger.cs:96-98 | the name cut from a saved path is the trigger's name, for a plain user name and a dot-free name |
| Persistence.SaveThenRead | SteamChatBot_Mono/Triggers/BaseTrigger.cs:57-159 | saving a trigger and reading its record back rebuilds it; `AcceptFriendRequestTrigger` gets default options and `PlayGameTrigger` is skipped |
| Persistence.RoundTripOptions | SteamChatBot_Mono/Triggers/BaseTrigger.cs:57-159 | for an ordinary trigger with options, the round trip gives the same trigger back, enabled |
| Persistence.ValidThenSkippedOrBroken | SteamChatBot_Mono/Triggers/BaseTrigger.cs:94-158 | a loaded record followed by one with no `case` yields just the first trigger; followed by one that throws, it yields nothing |

## Left out

- File I/O, JSON, and the directory listing. The store is a map from path to options record. The listing is a parameter, in the order the directory gives it. A record deserialising to `null` is not modelled: every record holds an options value.
- Steam calls (`SendChatRoomMessage`, `SendChatMessage`, `UnbanChatMember`) are recorded as actions, not performed.
- Logging (`Log.Instance`, `IfError`) has no effect on the model. The one exception is the guard re-evaluation in `OnChatMessage`'s rejection log, which can raise.
- Timers are never started in the source, so nothing is scheduled and neither timer callback can run. `TimerElapsed_Message` is not modelled. `AfterTimer_Timeout` is modelled as an explicit event the caller applies, so `DispatchLaws.CooldownCycle` describes an expiry the program never produces: in the program a trigger that replies with a positive timeout stays disabled.
- Concurrency between timer threads and event delivery is not modelled.
- The `haveSentMessage` and `haveEatenEvent` parameters are not modelled, because no handler reads them.
- Hooks of concrete triggers other than `UnbanTrigger` are not modelled. They are a `strategy` parameter of `Dispatch.Deliver`, and their own files are not part of this model.
- Events never carry a null message string.
- Entries of the ignore, user and room lists are never null. A deserialised list can hold a `null` entry, and under the `SteamID` equality operator, which holds for two nulls, `fromID == ignored` would then hold for a null `fromID` (`SteamChatBot_Mono/Triggers/BaseTrigger.cs:759`); that case, which would change `OnFriendMessage`, `OnTradeProposed` and `OnAnnouncement`, is not modelled.
- Text.ParseU64: trailing NUL characters, which the .NET number parser accepts after the digits, are rejected.
- The Mono `TriggerOptions` class is not part of this model. Its fields are taken from the copy in `SaveTrigger`, with `Delay` and `Timeout` as nullable `int` and `Probability` as nullable `double`, read as a real number.
- `TriggerOptionsBase.cs` is not part of this model.
- Culture-specific behaviour is not modelled. `ToLower` is ASCII-only. `IndexOf` is ordinal.
- TriggerKinds.ParseTag: `Enum.Parse` forms with surrounding white space, a sign, hexadecimal digits or comma-separated flag lists are treated as unparseable.
- Persistence.ExtractSavedName: the round trip is stated only for a user name without `/` that does not end in `triggers`, and for a trigger name without `.`. Other names cut elsewhere.
- Persistence.SaveThenRead: additionally requires a trigger name without `/` whose text parses to the trigger's tag.
- The `Bot.username` directory creation in `SaveTrigger` is not modelled; it is part of the file I/O.

=== FILE: commands.dfy ===
/** `StripCommand`: the command-prefix helper strategies use. */
module Commands {
  import opened Common
  import opened Text

  /** `LowerChar` keeps spaces and makes none. */
  lemma LowerSpace(c: char)
    ensures LowerChar(c) == ' ' <==> c == ' '
  {
  }

  /** `IndexOf(pat) == 0` is a prefix test. */
  lemma IndexOfZero(s: string, pat: string)
    ensures IndexOf(s, pat) == 0 <==> IsPrefix(pat, s)
  {
    if IsPrefix(pat, s) {
      assert OccursAt(s, pat, 0);
    }
  }

  /** `StripCommand(message, command)`: when both are non-null and the
      lower-cased message starts with the lower-cased command, the message
      split on `' '`; otherwise `None` (null). */
  function StripCommand(message: Option<string>, command: Option<string>): (r: Option<seq<string>>)
    ensures r.Some? <==>
      message.Some? && command.Some? && IsPrefix(Lower(command.value), Lower(message.value))
    ensures r.Some? ==> |r.value| >= 1 && NoSep(r.value, ' ') && Join(r.value, ' ') == message.value
  {
    if message.Some? && command.Some? && IndexOf(Lower(message.value), Lower(command.value)) == 0 then
      IndexOfZero(Lower(message.value), Lower(command.value));
      JoinSplit(message.value, ' ');
      SplitTokensNoSep(message.value, ' ');
      Some(Split(message.value, ' '))
    else
      if message.Some? && command.Some? then
        IndexOfZero(Lower(message.value), Lower(command.value));
        None
      else None
  }

  /** For a command without a space, the command is a prefix of token 0
      (case aside): it stands at index 0 of the result. */
  lemma CommandIsFirstToken(message: string, command: string)
    requires ' ' !in command
    requires StripCommand(Some(message), Some(command)).Some?
    ensures IsPrefix(Lower(command), Lower(StripCommand(Some(message), Some(command)).value[0]))
  {
    var n := |command|;
    var a, b := message[..n], message[n..];
    assert message == a + b;
    forall i | 0 <= i < n ensures a[i] != ' ' {
      LowerSpace(a[i]);
      assert Lower(message)[i] == Lower(command)[i];
    }
    SplitAfterHead(a, b, ' ');
    var first := Split(message, ' ')[0];
    assert first == a + Split(b, ' ')[0];
    assert Lower(first)[..n] == Lower(command) by {
      forall i | 0 <= i < n ensures Lower(first)[i] == Lower(command)[i] {
        assert first[i] == a[i] == message[i];
        assert Lower(message)[i] == Lower(command)[i];
      }
    }
  }

  /** A message that begins with the command itself always matches. */
  lemma CommandPrefixMatches(command: string, rest: string)
    ensures StripCommand(Some(command + rest), Some(command)) == Some(Split(command + rest, ' '))
  {
    var m := command + rest;
    assert Lower(m)[..|command|] == Lower(command) by {
      forall i | 0 <= i < |command| ensures Lower(m)[i] == Lower(command)[i] {
        assert m[i] == command[i];
      }
    }
  }

  /** The match is a raw prefix test: `!unbanned` passes for `!unban`. */
  lemma PrefixMatchesLongerWord()
    ensures StripCommand(Some("!unbanned x"), Some("!unban")) == Some(["!unbanned", "x"])
  {
    var tokens := ["!unbanned", "x"];
    assert "!unbanned x" == "!unban" + "ned x";
    CommandPrefixMatches("!unban", "ned x");
    assert Join(tokens, ' ') == "!unbanned x";
    assert NoSep(tokens, ' ') by {
      assert ' ' !in tokens[0] && ' ' !in tokens[1];
    }
    SplitJoin(tokens, ' ');
  }
}

=== FILE: common.dfy ===
/** Shared value types: nullable values, the 64-bit identifiers used for
    participants, rooms and groups, and C#'s integer division. */
module Common {

  /** A C# reference or nullable value: `None` stands for `null`. */
  datatype Option<+T> = None | Some(value: T)

  /** Exclusive upper bound of an unsigned 64-bit integer. */
  const U64Limit: int := 0x1_0000_0000_0000_0000

  /** An unsigned 64-bit integer (`ulong`). */
  type U64 = x: int | 0 <= x < 0x1_0000_0000_0000_0000

  /** A SteamID: a wrapper around one `ulong`, compared by value. */
  type SteamId = U64

  /** The elements of a nullable list; a null list has none. */
  function Entries<T>(list: Option<seq<T>>): (r: seq<T>)
    ensures list.Some? ==> r == list.value
    ensures list.None? ==> r == []
  {
    match list
    case None => []
    case Some(s) => s
  }

  /** C#'s `/` on `int`: the quotient is truncated toward zero, unlike
      Dafny's Euclidean division. */
  function TruncDiv(a: int, b: int): (q: int)
    requires b > 0
    ensures q > 0 <==> a >= b
  {
    if a >= 0 then a / b else -((-a) / b)
  }
}

=== FILE: config.dfy ===
/** A trigger's configuration record and the runtime trigger object. */
module Config {
  import opened Common
  import opened TriggerKinds

  /** The options record: every field is nullable, `None` meaning unset.
      `delay` and `timeout` are milliseconds. */
  datatype TriggerOptions = TriggerOptions(
    delay: Option<int>,
    probability: Option<real>,
    timeout: Option<int>,
    ignore: Option<seq<SteamId>>,
    user: Option<seq<SteamId>>,
    rooms: Option<seq<SteamId>>,
    command: Option<string>,
    matches: Option<seq<string>>,
    responses: Option<seq<string>>,
    apiKey: Option<string>)

  /** `new TriggerOptions()`: nothing set. */
  const DefaultOptions: TriggerOptions :=
    TriggerOptions(None, None, None, None, None, None, None, None, None, None)

  /** A trigger: its tag, its name, its (nullable) options and the
      `ReplyEnabled` cooldown flag, the only field dispatch changes. */
  datatype Trigger = Trigger(
    kind: TriggerType,
    name: string,
    options: Option<TriggerOptions>,
    replyEnabled: bool)

  /** `new BaseTrigger(type, name, options)`: replies start enabled. */
  function NewTrigger(kind: TriggerType, name: string, options: Option<TriggerOptions>): (t: Trigger)
    ensures t.replyEnabled
    ensures t.kind == kind && t.name == name && t.options == options
  {
    Trigger(kind, name, options, true)
  }

  /** `new BaseTrigger(type, name)`: a fresh default options record. */
  function NewDefaultTrigger(kind: TriggerType, name: string): (t: Trigger)
    ensures t.replyEnabled && t.options == Some(DefaultOptions)
    ensures t.kind == kind && t.name == name
  {
    Trigger(kind, name, Some(DefaultOptions), true)
  }
}

=== FILE: cooldown.dfy ===
/** The `ReplyEnabled` cooldown flag: a successful reply disables it when a
    positive timeout is configured, and the timer callback re-enables it. */
module Cooldown {
  import opened Common
  import opened Config

  predicate PositiveTimeout(o: TriggerOptions)
  {
    o.timeout.Some? && o.timeout.value > 0
  }

  /** `DisableForTimeout()` applied to the flag `enabled`: the new flag, or
      `None` for the `NullReferenceException` a null options record raises.
      The timer it builds is never started, so nothing is scheduled. */
  function DisableForTimeout(options: Option<TriggerOptions>, enabled: bool): (r: Option<bool>)
    ensures r.None? <==> options.None?
    ensures r.Some? && PositiveTimeout(options.value) ==> !r.value
    ensures r.Some? && !PositiveTimeout(options.value) ==> r.value == enabled
  {
    match options
    case None => None
    case Some(o) =>
      if o.timeout != None && o.timeout.value > 0 then Some(false) else Some(enabled)
  }

  /** `AfterTimer_Timeout`: the expiry callback, as an explicit event. */
  function AfterTimerTimeout(t: Trigger): (r: Trigger)
    ensures r.replyEnabled
    ensures r.kind == t.kind && r.name == t.name && r.options == t.options
  {
    t.(replyEnabled := true)
  }
}

=== FILE: delayed_send.dfy ===
/** `SendMessageAfterDelay`: send now when no delay is set, otherwise build
    a timer that is never started. */
module DelayedSend {
  import opened Common
  import opened Config
  import opened Hooks

  /** What the call does: one immediate send; a timer built with the given
      interval but never started, so nothing is sent; or an exception. */
  datatype SendOutcome =
    | SentNow(action: Action)
    | TimerIdle(interval: int)
    | SendRaised

  /** The actions a send outcome has performed. */
  function Emitted(r: SendOutcome): seq<Action>
  {
    if r.SentNow? then [r.action] else []
  }

  /** The message action for `to`: a room message when `room`, a direct
      message otherwise. */
  function MessageTo(to: SteamId, message: string, room: bool): Action
  {
    if room then SendRoomMessage(to, message) else SendDirectMessage(to, message)
  }

  predicate NoDelay(o: TriggerOptions)
  {
    o.delay.None? || o.delay.value == 0
  }

  /** `SendMessageAfterDelay(steamID, message, room)`. The timer interval is
      `Delay / 1000` in integer arithmetic, and `new Timer(interval)`
      rejects an interval that is not positive: a delay between 1 and 999 ms,
      or a negative one, raises. A null options record raises too. */
  function SendMessageAfterDelay(options: Option<TriggerOptions>, to: SteamId, message: string, room: bool): (r: SendOutcome)
    ensures r.SentNow? <==> options.Some? && NoDelay(options.value)
    ensures r.SentNow? ==> r.action == MessageTo(to, message, room)
    ensures r.SentNow? && room ==> r.action.SendRoomMessage?
    ensures r.SentNow? && !room ==> r.action.SendDirectMessage?
    ensures r.TimerIdle? ==> options.Some? && options.value.delay.Some? && options.value.delay.value >= 1000 && r.interval >= 1
    ensures r.TimerIdle? ==> r.interval == options.value.delay.value / 1000
    ensures Emitted(r) == [] || Emitted(r) == [MessageTo(to, message, room)]
    ensures r.SendRaised? <==>
      options.None? || (options.value.delay.Some? && options.value.delay.value != 0 && options.value.delay.value < 1000)
  {
    match options
    case None => SendRaised
    case Some(o) =>
      if o.delay.None? || o.delay.value == 0 then SentNow(MessageTo(to, message, room))
      else
        var interval := TruncDiv(o.delay.value, 1000);
        if interval <= 0 then SendRaised else TimerIdle(interval)
  }
}

=== FILE: dispatch.dfy ===
/** The `On*` entry points: each evaluates its own guard conjunction,
    calls one hook inside a `try`, turns an exception from the hook into
    `false`, and engages the cooldown after a successful reply. */
module Dispatch {
  import opened Common
  import opened Config
  import opened Hooks
  import opened Guards
  import opened Cooldown

  /** One operand of a handler's `if` condition that reads the options
      record. */
  datatype Guard =
    | RollGuard
    | UserGuard(id: SteamId)
    | RoomGuard(id: SteamId)
    | NotIgnoredGuard(to: SteamId, from: Option<SteamId>)
    | IgnoredGuard(to: SteamId, from: Option<SteamId>)

  /** The shape of one `On*` method: whether its condition starts with
      `ReplyEnabled`, the options-reading guards that follow in source order,
      the hook it calls, whether a `true` hook result calls
      `DisableForTimeout` (exactly the `ReplyEnabled`-gated handlers do),
      whether it returns the hook's result (`OnBannedChat` does not), and
      whether its rejection branch logs the guards again. */
  datatype Handler = Handler(
    replyGated: bool,
    guards: seq<Guard>,
    call: HookCall,
    returnsResult: bool,
    logsRejection: bool)

  function HandlerFor(ev: Event): (h: Handler)
    ensures h.replyGated <==>
      ev.FriendMessage? || ev.ChatMessage? || ev.EnteredChat? || ev.KickedChat? || ev.BannedChat?
      || ev.Disconnected? || ev.LeftChat?
    ensures h.replyGated ==> |h.guards| >= 2 && h.guards[0] == RollGuard
    ensures |h.guards| == 0 <==>
      ev.Load? || ev.LoggedOn? || ev.LoggedOff? || ev.FriendRequest? || ev.TradeOffer?
      || ev.TradeSession? || ev.SentMessage?
    ensures h.returnsResult <==> !ev.BannedChat?
    ensures h.logsRejection <==> ev.ChatMessage?
  {
    match ev
    case Load => Handler(false, [], OnLoadHook, true, false)
    case LoggedOn => Handler(false, [], OnLoggedOnHook, true, false)
    case LoggedOff => Handler(false, [], OnLoggedOffHook, true, false)
    case ChatInvite(room, roomName, inviter) =>
      Handler(false, [UserGuard(inviter), RoomGuard(room), NotIgnoredGuard(room, Some(inviter))],
              RespondToChatInvite(room, roomName, inviter), true, false)
    case FriendRequest(user) => Handler(false, [], RespondToFriendRequest(user), true, false)
    case FriendMessage(user, message) =>
      Handler(true, [RollGuard, UserGuard(user), NotIgnoredGuard(user, None)],
              RespondToFriendMessage(user, message), true, false)
    case TradeOffer(number) => Handler(false, [], RespondToTradeOffer(number), true, false)
    case TradeProposed(trade, user) =>
      Handler(false, [UserGuard(user), IgnoredGuard(user, None)],
              RespondToTradeProposal(trade, user), true, false)
    case TradeSession(user) => Handler(false, [], RespondToTradeSession(user), true, false)
    case Announcement(group, headline) =>
      Handler(false, [IgnoredGuard(group, None)], RespondToAnnouncement(group, headline), true, false)
    case SentMessage(to, message) => Handler(false, [], RespondToSentMessage(to, message), true, false)
    case ChatMessage(room, chatter, message) =>
      Handler(true, [RollGuard, UserGuard(chatter), RoomGuard(room), NotIgnoredGuard(chatter, Some(room))],
              RespondToChatMessage(room, chatter, message), true, true)
    case EnteredChat(room, user) =>
      Handler(true, [RollGuard, RoomGuard(room), UserGuard(user), NotIgnoredGuard(user, Some(room))],
              RespondToEnteredMessage(room, user), true, false)
    case KickedChat(room, kicked, kicker) =>
      Handler(true, [RollGuard, RoomGuard(room)], RespondToKick(room, kicked, kicker), true, false)
    case BannedChat(room, banned, banner) =>
      Handler(true, [RollGuard, RoomGuard(room)], RespondToBan(room, banned, banner), false, false)
    case Disconnected(room, user) =>
      Handler(true, [RollGuard, RoomGuard(room), UserGuard(user), NotIgnoredGuard(user, Some(room))],
              RespondToDisconnect(room, user), true, false)
    case LeftChat(room, user) =>
      Handler(true, [RollGuard, RoomGuard(room), UserGuard(user), NotIgnoredGuard(room, Some(user))],
              RespondToEnteredMessage(room, user), true, false)
  }

  /** The value of a guard that reads the options record. */
  function Holds(o: TriggerOptions, g: Guard): bool
  {
    match g
    case RollGuard => RandomRoll(o)
    case UserGuard(id) => CheckUser(o, id)
    case RoomGuard(id) => CheckRoom(o, id)
    case NotIgnoredGuard(to, from) => !CheckIgnores(o, to, from)
    case IgnoredGuard(to, from) => CheckIgnores(o, to, from)
  }

  /** The options-reading operands, left to right with short-circuit. */
  predicate AllHold(o: TriggerOptions, gs: seq<Guard>)
  {
    |gs| == 0 || (Holds(o, gs[0]) && AllHold(o, gs[1..]))
  }

  /** A handler's whole condition: `ReplyEnabled` first when the handler
      tests it, then the other operands. `None` is the
      `NullReferenceException` the first options-reading operand raises on
      a null options record. */
  function EvalGuards(t: Trigger, h: Handler): (r: Option<bool>)
    ensures r.None? <==> (!h.replyGated || t.replyEnabled) && |h.guards| > 0 && t.options.None?
    ensures h.replyGated && !t.replyEnabled ==> r == Some(false)
    ensures r == Some(true) ==>
      && (!h.replyGated || t.replyEnabled)
      && (|h.guards| > 0 ==> t.options.Some? && Holds(t.options.value, h.guards[0]))
  {
    if h.replyGated && !t.replyEnabled then Some(false)
    else if |h.guards| == 0 then Some(true)
    else if t.options.None? then None
    else Some(AllHold(t.options.value, h.guards))
  }

  /** What an `On*` call does to its caller: returns a boolean, or lets an
      exception raised by a guard escape. */
  datatype Outcome = Answered(value: bool) | Raised

  /** The result of delivering one event to one trigger: the outcome, the
      trigger afterwards, the actions performed, and the hook called. */
  datatype Delivery = Delivery(
    outcome: Outcome,
    trigger: Trigger,
    actions: seq<Action>,
    called: Option<HookCall>)

  predicate HookSucceeded(h: HookOutcome)
  {
    h.Returned? && h.value
  }

  /** Running the `try` block: the hook, then `DisableForTimeout` when the
      hook answered `true` and the handler cools down. */
  function Invoke(t: Trigger, h: Handler, hook: HookOutcome): (d: Delivery)
    ensures d.called == Some(h.call) && d.actions == hook.emitted && d.outcome.Answered?
    ensures d.trigger == t.(replyEnabled := d.trigger.replyEnabled)
    ensures d.outcome.value ==> h.returnsResult && HookSucceeded(hook)
  {
    match hook
    case Threw(emitted) => Delivery(Answered(false), t, emitted, Some(h.call))
    case Returned(value, emitted) =>
      if value && h.replyGated then
        match DisableForTimeout(t.options, t.replyEnabled)
        case None => Delivery(Answered(false), t, emitted, Some(h.call))
        case Some(flag) => Delivery(Answered(h.returnsResult), t.(replyEnabled := flag), emitted, Some(h.call))
      else Delivery(Answered(h.returnsResult && value), t, emitted, Some(h.call))
  }

  /** Delivers `ev` to trigger `t` whose hooks are `strategy`. */
  function Deliver(t: Trigger, ev: Event, strategy: HookCall -> HookOutcome): (d: Delivery)
    ensures d.trigger == t.(replyEnabled := d.trigger.replyEnabled)
    ensures d.called.None? ==> d.trigger == t && d.actions == [] && d.outcome != Answered(true)
    ensures d.called.Some? ==> d.called == Some(HandlerFor(ev).call) && d.actions == strategy(d.called.value).emitted
    ensures d.outcome == Answered(true) ==> d.called.Some? && HookSucceeded(strategy(d.called.value))
    ensures !t.replyEnabled ==> !d.trigger.replyEnabled
  {
    var h := HandlerFor(ev);
    match EvalGuards(t, h)
    case None => Delivery(Raised, t, [], None)
    case Some(false) =>
      if h.logsRejection && t.options.None? then Delivery(Raised, t, [], None)
      else Delivery(Answered(false), t, [], None)
    case Some(true) => Invoke(t, h, strategy(h.call))
  }
}

=== FILE: dispatch_laws.dfy ===
/** What the `On*` handlers promise, stated against reference definitions
    written out per handler. */
module DispatchLaws {
  import opened Common
  import opened Config
  import opened Hooks
  import opened Guards
  import opened Cooldown
  import opened Dispatch

  /** Each handler's `if` condition, operand by operand as the source writes
      it, for a non-null options record. Handlers without a condition admit
      every event. */
  predicate Admits(enabled: bool, o: TriggerOptions, ev: Event)
  {
    match ev
    case ChatInvite(room, _, inviter) =>
      CheckUser(o, inviter) && CheckRoom(o, room) && !CheckIgnores(o, room, Some(inviter))
    case FriendMessage(user, _) =>
      enabled && RandomRoll(o) && CheckUser(o, user) && !CheckIgnores(o, user, None)
    case TradeProposed(_, user) => CheckUser(o, user) && CheckIgnores(o, user, None)
    case Announcement(group, _) => CheckIgnores(o, group, None)
    case ChatMessage(room, chatter, _) =>
      enabled && RandomRoll(o) && CheckUser(o, chatter) && CheckRoom(o, room) && !CheckIgnores(o, chatter, Some(room))
    case EnteredChat(room, user) =>
      enabled && RandomRoll(o) && CheckRoom(o, room) && CheckUser(o, user) && !CheckIgnores(o, user, Some(room))
    case KickedChat(room, _, _) => enabled && RandomRoll(o) && CheckRoom(o, room)
    case BannedChat(room, _, _) => enabled && RandomRoll(o) && CheckRoom(o, room)
    case Disconnected(room, user) =>
      enabled && RandomRoll(o) && CheckRoom(o, room) && CheckUser(o, user) && !CheckIgnores(o, user, Some(room))
    case LeftChat(room, user) =>
      enabled && RandomRoll(o) && CheckRoom(o, room) && CheckUser(o, user) && !CheckIgnores(o, room, Some(user))
    case _ => true
  }

  /** The handlers whose condition starts with `ReplyEnabled`; they are also
      the ones that call `DisableForTimeout` after a successful reply. */
  predicate ReplyGuarded(ev: Event)
  {
    ev.FriendMessage? || ev.ChatMessage? || ev.EnteredChat? || ev.KickedChat?
    || ev.BannedChat? || ev.Disconnected? || ev.LeftChat?
  }

  /** The handlers with no condition at all. */
  predicate Unguarded(ev: Event)
  {
    ev.Load? || ev.LoggedOn? || ev.LoggedOff? || ev.FriendRequest?
    || ev.TradeOffer? || ev.TradeSession? || ev.SentMessage?
  }

  /** With a null options record, whether the handler raises: every
      condition that reaches an options-reading guard does, and
      `OnChatMessage` also re-evaluates the guards in its rejection log. */
  predicate RaisesOnNullOptions(enabled: bool, ev: Event)
  {
    ev.ChatInvite? || ev.TradeProposed? || ev.Announcement? || ev.ChatMessage?
    || (ReplyGuarded(ev) && enabled)
  }

  /** A handler's condition, with a non-null options record, is its
      reference conjunction. */
  lemma GuardsMatchAdmits(t: Trigger, ev: Event)
    requires t.options.Some?
    ensures EvalGuards(t, HandlerFor(ev)) == Some(Admits(t.replyEnabled, t.options.value, ev))
  {
    AllHoldUnfold(t.options.value, HandlerFor(ev).guards);
  }

  /** The chain of at most four operands, written out. */
  lemma AllHoldUnfold(o: TriggerOptions, gs: seq<Guard>)
    requires |gs| <= 4
    ensures AllHold(o, gs) <==>
      && (|gs| > 0 ==> Holds(o, gs[0]))
      && (|gs| > 1 ==> Holds(o, gs[1]))
      && (|gs| > 2 ==> Holds(o, gs[2]))
      && (|gs| > 3 ==> Holds(o, gs[3]))
  {
    AllHoldIsEvery(o, gs);
  }

  /** The short-circuit chain holds exactly when every operand does. */
  lemma {:induction false} AllHoldIsEvery(o: TriggerOptions, gs: seq<Guard>)
    ensures AllHold(o, gs) <==> forall i :: 0 <= i < |gs| ==> Holds(o, gs[i])
    decreases |gs|
  {
    if |gs| > 0 {
      AllHoldIsEvery(o, gs[1..]);
      if AllHold(o, gs) {
        forall i | 0 <= i < |gs| ensures Holds(o, gs[i]) {
          if i > 0 { assert gs[i] == gs[1..][i - 1]; }
        }
      }
    }
  }

  /** The hook is called exactly when the handler's own condition holds. */
  lemma AdmissionIsGuardConjunction(t: Trigger, ev: Event, strategy: HookCall -> HookOutcome)
    requires t.options.Some?
    ensures Deliver(t, ev, strategy).called.Some? <==> Admits(t.replyEnabled, t.options.value, ev)
    ensures Deliver(t, ev, strategy).outcome.Answered?
  {
    GuardsMatchAdmits(t, ev);
  }

  /** `OnChatMessage` calls its hook exactly when replies are enabled, the
      roll passes, the chatter is whitelisted (or there is no whitelist) and
      neither chatter nor room is ignored. The room whitelist plays no
      part. */
  lemma ChatMessageAdmission(t: Trigger, room: SteamId, chatter: SteamId, message: string,
                             strategy: HookCall -> HookOutcome)
    requires t.options.Some?
    ensures var o := t.options.value;
      Deliver(t, ChatMessage(room, chatter, message), strategy).called.Some? <==>
        && t.replyEnabled
        && (o.probability.None? || o.probability.value >= 0.0)
        && (Entries(o.user) == [] || chatter in Entries(o.user))
        && chatter !in Entries(o.ignore)
        && room !in Entries(o.ignore)
  {
    AdmissionIsGuardConjunction(t, ChatMessage(room, chatter, message), strategy);
  }

  /** Replacing the room whitelist changes nothing any handler does. */
  lemma RoomWhitelistHasNoEffect(t: Trigger, rooms: Option<seq<SteamId>>, ev: Event,
                                 strategy: HookCall -> HookOutcome)
    requires t.options.Some?
    ensures var t' := t.(options := Some(t.options.value.(rooms := rooms)));
      var d, d' := Deliver(t, ev, strategy), Deliver(t', ev, strategy);
      && d'.outcome == d.outcome && d'.called == d.called && d'.actions == d.actions
      && d'.trigger.replyEnabled == d.trigger.replyEnabled
  {
    var t' := t.(options := Some(t.options.value.(rooms := rooms)));
    GuardsMatchAdmits(t, ev);
    GuardsMatchAdmits(t', ev);
    assert Admits(t.replyEnabled, t.options.value, ev) == Admits(t'.replyEnabled, t'.options.value, ev);
  }

  /** While replies are disabled no `ReplyEnabled`-gated handler calls its
      hook: nothing is sent and the trigger is unchanged. Only
      `OnChatMessage` with a null options record raises, from its
      rejection log. */
  lemma DisabledSuppressesReplies(t: Trigger, ev: Event, strategy: HookCall -> HookOutcome)
    requires ReplyGuarded(ev) && !t.replyEnabled
    ensures var d := Deliver(t, ev, strategy);
      && d.called.None? && d.trigger == t && d.actions == []
      && d.outcome != Answered(true)
      && (d.outcome.Raised? <==> ev.ChatMessage? && t.options.None?)
  {
  }

  /** The handlers without a condition always call their hook, answer its
      result (`false` if it threw) and leave the trigger as it was. */
  lemma UnguardedHandlersAlwaysCall(t: Trigger, ev: Event, strategy: HookCall -> HookOutcome)
    requires Unguarded(ev)
    ensures var d := Deliver(t, ev, strategy);
      && d.called == Some(HandlerFor(ev).call)
      && d.trigger == t
      && d.outcome == Answered(HookSucceeded(strategy(HandlerFor(ev).call)))
  {
  }

  /** A hook that throws makes the handler answer `false`, with no
      cooldown; whatever the hook performed before throwing stays
      performed. */
  lemma HookExceptionYieldsFalse(t: Trigger, ev: Event, strategy: HookCall -> HookOutcome)
    requires Deliver(t, ev, strategy).called.Some?
    requires strategy(HandlerFor(ev).call).Threw?
    ensures var d := Deliver(t, ev, strategy);
      d.outcome == Answered(false) && d.trigger == t && d.actions == strategy(HandlerFor(ev).call).emitted
  {
  }

  /** A handler answers `true` exactly when it called its hook, the hook
      answered `true`, and the handler is not `OnBannedChat`, which always
      answers `false`. */
  lemma HandledIffHookSucceeded(t: Trigger, ev: Event, strategy: HookCall -> HookOutcome)
    ensures var d := Deliver(t, ev, strategy);
      d.outcome == Answered(true) <==>
        d.called.Some? && HookSucceeded(strategy(HandlerFor(ev).call)) && !ev.BannedChat?
  {
  }

  /** The flag afterwards: a successful reply through a `ReplyEnabled`-gated
      handler with a positive timeout clears it; nothing else changes it. */
  lemma CooldownTransition(t: Trigger, ev: Event, strategy: HookCall -> HookOutcome)
    ensures var d := Deliver(t, ev, strategy);
      d.trigger.replyEnabled <==>
        t.replyEnabled
        && !(ReplyGuarded(ev) && d.called.Some? && HookSucceeded(strategy(HandlerFor(ev).call))
             && t.options.Some? && PositiveTimeout(t.options.value))
  {
  }

  /** `OnLeftChat` calls `respondToEnteredMessage`; no handler ever calls
      `respondToLeftMessage`. */
  lemma LeftChatCallsEnteredHook(t: Trigger, room: SteamId, user: SteamId, ev: Event,
                                 strategy: HookCall -> HookOutcome)
    ensures Deliver(t, LeftChat(room, user), strategy).called.Some? ==>
      Deliver(t, LeftChat(room, user), strategy).called == Some(RespondToEnteredMessage(room, user))
    ensures !HandlerFor(ev).call.RespondToLeftMessage?
  {
  }

  /** With a null options record: only the unconditional handlers call
      their hook, and a handler raises exactly when its condition (or
      `OnChatMessage`'s rejection log) reaches an options-reading guard. */
  lemma NullOptionsBehaviour(t: Trigger, ev: Event, strategy: HookCall -> HookOutcome)
    requires t.options.None?
    ensures var d := Deliver(t, ev, strategy);
      && (d.called.Some? <==> Unguarded(ev))
      && (d.outcome.Raised? <==> RaisesOnNullOptions(t.replyEnabled, ev))
  {
  }

  /** A full cooldown cycle: a successful chat reply with a positive timeout
      disables the trigger, so the same message is then refused; once the
      timer callback has run, the message is handled exactly as the first
      time. */
  lemma CooldownCycle(t: Trigger, room: SteamId, chatter: SteamId, message: string,
                      strategy: HookCall -> HookOutcome)
    requires t.options.Some? && PositiveTimeout(t.options.value)
    requires Deliver(t, ChatMessage(room, chatter, message), strategy).outcome == Answered(true)
    ensures var ev := ChatMessage(room, chatter, message);
      var first := Deliver(t, ev, strategy);
      && !first.trigger.replyEnabled
      && Deliver(first.trigger, ev, strategy).called.None?
      && Deliver(AfterTimerTimeout(first.trigger), ev, strategy) == first
  {
    var ev := ChatMessage(room, chatter, message);
    var first := Deliver(t, ev, strategy);
    assert t.replyEnabled;
    assert AfterTimerTimeout(first.trigger) == t;
  }
}

=== FILE: guards.dfy ===
/** The admission predicates every dispatcher combines. Each reads the
    options record; the dispatcher deals with a null one. */
module Guards {
  import opened Common
  import opened Config

  /** The value `new Random().Next(0, 1)` returns: the upper bound is
      exclusive, so the draw is always 0. */
  const Draw: real := 0.0

  /** The linear scan of the guards' `for` loops. */
  function Scan(list: seq<SteamId>, id: SteamId): (r: bool)
    ensures r <==> id in list
  {
    |list| > 0 && (list[0] == id || Scan(list[1..], id))
  }

  /** The scan of `CheckIgnores`: an entry equal to either identifier. A
      null `from` equals no entry. */
  function ScanIgnores(list: seq<SteamId>, to: SteamId, from: Option<SteamId>): (r: bool)
    ensures r <==> to in list || (from.Some? && from.value in list)
  {
    |list| > 0 && (list[0] == to || from == Some(list[0]) || ScanIgnores(list[1..], to, from))
  }

  /** `CheckIgnores(toID, fromID)`: true iff either identifier is on the
      ignore list; a null or empty list ignores nobody. */
  function CheckIgnores(o: TriggerOptions, to: SteamId, from: Option<SteamId>): (r: bool)
    ensures r <==> to in Entries(o.ignore) || (from.Some? && from.value in Entries(o.ignore))
    ensures Entries(o.ignore) == [] ==> !r
  {
    if o.ignore.Some? && |o.ignore.value| > 0 then ScanIgnores(o.ignore.value, to, from)
    else false
  }

  /** `CheckRoom(toID)`: the loop returns true whether or not it finds the
      room, so every room is admitted, whitelist or not. */
  function CheckRoom(o: TriggerOptions, room: SteamId): (r: bool)
    ensures r
  {
    if o.rooms.None? || |o.rooms.value| == 0 then true
    else if Scan(o.rooms.value, room) then true
    else true
  }

  /** `CheckUser(fromID)`: everyone when the whitelist is null or empty,
      otherwise exactly its members. */
  function CheckUser(o: TriggerOptions, user: SteamId): (r: bool)
    ensures r <==> Entries(o.user) == [] || user in Entries(o.user)
  {
    if o.user.Some? && |o.user.value| > 0 then Scan(o.user.value, user)
    else true
  }

  /** `RandomRoll()`: with a probability set, the roll fails when the draw
      exceeds it. Since the draw is 0 it fails only for a negative
      probability. */
  function RandomRoll(o: TriggerOptions): (r: bool)
    ensures r <==> o.probability.None? || o.probability.value >= 0.0
  {
    if o.probability.Some? || o.probability == Some(1.0) then !(Draw > o.probability.value)
    else true
  }
}

=== FILE: hooks.dfy ===
/** Inbound events, the hook interface a concrete trigger overrides, and
    the outbound actions hooks perform. */
module Hooks {
  import opened Common

  /** An outbound effect on the chat client: a room message, a direct
      message, or lifting a room ban. */
  datatype Action =
    | SendRoomMessage(room: SteamId, text: string)
    | SendDirectMessage(to: SteamId, text: string)
    | UnbanMember(room: SteamId, member: SteamId)

  /** One inbound event per `On*` entry point, with its arguments. The
      `haveSentMessage`/`haveEatenEvent` flags are left out: no handler
      reads them. */
  datatype Event =
    | Load
    | LoggedOn
    | LoggedOff
    | ChatInvite(room: SteamId, roomName: string, inviter: SteamId)
    | FriendRequest(user: SteamId)
    | FriendMessage(user: SteamId, message: string)
    | TradeOffer(number: int)
    | TradeProposed(trade: SteamId, user: SteamId)
    | TradeSession(user: SteamId)
    | Announcement(group: SteamId, headline: string)
    | SentMessage(to: SteamId, message: string)
    | ChatMessage(room: SteamId, chatter: SteamId, message: string)
    | EnteredChat(room: SteamId, user: SteamId)
    | KickedChat(room: SteamId, kicked: SteamId, kicker: SteamId)
    | BannedChat(room: SteamId, banned: SteamId, banner: SteamId)
    | Disconnected(room: SteamId, user: SteamId)
    | LeftChat(room: SteamId, user: SteamId)

  /** A call of one overridable hook, with its arguments. */
  datatype HookCall =
    | OnLoadHook
    | OnLoggedOnHook
    | OnLoggedOffHook
    | RespondToChatInvite(room: SteamId, roomName: string, inviter: SteamId)
    | RespondToFriendRequest(user: SteamId)
    | RespondToFriendMessage(user: SteamId, message: string)
    | RespondToSentMessage(to: SteamId, message: string)
    | RespondToChatMessage(room: SteamId, chatter: SteamId, message: string)
    | RespondToEnteredMessage(room: SteamId, user: SteamId)
    | RespondToBan(room: SteamId, banned: SteamId, banner: SteamId)
    | RespondToDisconnect(room: SteamId, user: SteamId)
    | RespondToLeftMessage(room: SteamId, user: SteamId)
    | RespondToKick(room: SteamId, kicked: SteamId, kicker: SteamId)
    | RespondToAnnouncement(group: SteamId, headline: string)
    | RespondToTradeSession(user: SteamId)
    | RespondToTradeProposal(trade: SteamId, user: SteamId)
    | RespondToTradeOffer(number: int)

  /** What a hook did: returned a value, or threw; either way the actions
      it performed before returning or throwing stay performed. */
  datatype HookOutcome =
    | Returned(value: bool, emitted: seq<Action>)
    | Threw(emitted: seq<Action>)

  predicate IsLifecycle(call: HookCall)
  {
    call.OnLoadHook? || call.OnLoggedOnHook? || call.OnLoggedOffHook?
  }

  /** The base class's hooks: the lifecycle hooks succeed, every
      `respondTo*` hook declines; none performs an action. */
  function BaseHook(call: HookCall): (r: HookOutcome)
    ensures r.Returned? && r.emitted == []
    ensures r.value <==> IsLifecycle(call)
  {
    match call
    case OnLoadHook => Returned(true, [])
    case OnLoggedOnHook => Returned(true, [])
    case OnLoggedOffHook => Returned(true, [])
    case _ => Returned(false, [])
  }
}

=== FILE: numerals.dfy ===
/** What `Convert.ToUInt64` does with overflowing and signed numerals. */
module NumeralLaws {
  import opened Common
  import opened Text

  /** `Convert.ToUInt64` rejects the decimal numeral of every number
      beyond `ulong`: it throws `OverflowException`. */
  lemma ParseOverflow(n: nat)
    requires n >= U64Limit
    ensures ParseU64(DecimalText(n)) == None
  {
    DecimalTextValue(n);
    DigitsAreTheirBody(DecimalText(n));
  }

  /** Leading zeros and surrounding white space are accepted: the second
      word of `!unban 05` or of `!unban \t5` is the id 5. */
  lemma ParsePadded()
    ensures ParseU64("05") == Some(5)
    ensures ParseU64("\t5") == Some(5)
    ensures ParseU64("5\t") == Some(5)
  {
    DigitsAreTheirBody("05");
    assert "05"[..1] == "0";
    assert DigitsValue("0") == 0;
    assert TrimStartWhite("\t5") == TrimStartWhite("5");
    assert TrimEndWhite("5\t") == TrimEndWhite("5");
  }

  /** A minus sign is accepted on zero and nowhere else. */
  lemma ParseNegative(ds: string)
    requires |ds| > 0 && AllDigits(ds)
    ensures ParseU64(['-'] + ds) == if DigitsValue(ds) == 0 then Some(0) else None
  {
    var s := ['-'] + ds;
    assert ParseU64(s) == ReadTrimmed(Trimmed(s));
    TrimSigned('-', ds);
    ReadSigned('-', ds);
  }

  /** A plus sign is skipped. */
  lemma ParsePositive(ds: string)
    requires |ds| > 0 && AllDigits(ds)
    ensures ParseU64(['+'] + ds) == if DigitsValue(ds) < U64Limit then Some(DigitsValue(ds)) else None
  {
    var s := ['+'] + ds;
    assert ParseU64(s) == ReadTrimmed(Trimmed(s));
    TrimSigned('+', ds);
    ReadSigned('+', ds);
  }

  /** A signed numeral has no white space to trim. */
  lemma TrimSigned(c: char, ds: string)
    requires c == '+' || c == '-'
    requires |ds| > 0 && AllDigits(ds)
    ensures Trimmed([c] + ds) == [c] + ds
  {
    var s := [c] + ds;
    assert s[|s| - 1] == ds[|ds| - 1];
    assert IsDigit(ds[|ds| - 1]);
    NoWhiteToTrim(s);
  }

  /** Reading a trimmed signed numeral. */
  lemma ReadSigned(c: char, ds: string)
    requires c == '+' || c == '-'
    requires |ds| > 0 && AllDigits(ds)
    ensures ReadTrimmed([c] + ds) ==
      if DigitsValue(ds) >= U64Limit || (c == '-' && DigitsValue(ds) != 0) then None else Some(DigitsValue(ds))
  {
    assert ([c] + ds)[1..] == ds;
  }
}

=== FILE: persistence.dfy ===
/** `SaveTrigger` and `ReadTriggers`: the record path, the options record
    written, and how a record path is turned back into a trigger. Storage
    is a map from path to options record; the JSON text is not modelled. */
module Persistence {
  import opened Common
  import opened Text
  import opened TriggerKinds
  import opened Config

  /** The trigger records of a session: file path to options record. */
  type Store = map<string, TriggerOptions>

  /** The text `ReadTriggers` searches a path for. */
  const Marker: string := "triggers/"

  /** `Bot.username + "/triggers/" + Name + ".json"`. */
  function TriggerPath(username: string, name: string): (r: string)
    ensures |r| == |username| + |name| + 15
    ensures r[..|username|] == username && r[|username|] == '/'
    ensures r[|username| + 1..|username| + 10] == Marker
    ensures r[|username| + 10..|username| + 10 + |name|] == name
    ensures r[|r| - 5..] == ".json"
  {
    username + "/triggers/" + name + ".json"
  }

  /** The record `SaveTrigger` serializes: a field-by-field copy of the
      options, or a fresh default record when they are null. */
  function SavedRecord(options: Option<TriggerOptions>): (r: TriggerOptions)
    ensures options.Some? ==> r == options.value
    ensures options.None? ==> r == DefaultOptions
  {
    match options
    case Some(o) =>
      TriggerOptions(o.delay, o.probability, o.timeout, o.ignore, o.user, o.rooms,
                     o.command, o.matches, o.responses, o.apiKey)
    case None => DefaultOptions
  }

  /** `SaveTrigger()`: overwrites the trigger's record and no other. */
  function SaveTrigger(username: string, t: Trigger, store: Store): (r: Store)
    ensures r.Keys == store.Keys + {TriggerPath(username, t.name)}
    ensures r[TriggerPath(username, t.name)] == SavedRecord(t.options)
    ensures forall p :: p in store && p != TriggerPath(username, t.name) ==> r[p] == store[p]
  {
    store[TriggerPath(username, t.name) := SavedRecord(t.options)]
  }

  /** The trigger name `ReadTriggers` cuts out of a path: from just after
      the first `triggers/` (position 8 when there is none, as `IndexOf`
      then answers -1) up to the next `.`. `None` is the
      `ArgumentOutOfRangeException` of a start past the end or of a missing
      dot. */
  function ExtractName(file: string): (r: Option<string>)
    ensures var start := IndexOf(file, Marker) + |Marker|;
      r.Some? <==> start <= |file| && '.' in file[start..]
    ensures var start := IndexOf(file, Marker) + |Marker|;
      r.Some? ==>
        && start + |r.value| < |file|
        && r.value == file[start..start + |r.value|]
        && file[start + |r.value|] == '.'
        && '.' !in r.value
  {
    var start := IndexOf(file, Marker) + |Marker|;
    if start > |file| then None
    else
      var end := IndexOfFrom(file, ".", start);
      IndexOfChar(file, '.', start);
      if end < 0 then
        assert '.' !in file[start..] by {
          forall k | 0 <= k < |file| - start ensures file[start..][k] != '.' {
            assert file[start..][k] == file[start + k];
          }
        }
        None
      else
        assert file[start..][end - start] == file[end];
        Some(file[start..end])
  }

  /** The tag text: the name after its first `/`, or all of it. */
  function TagText(name: string): (r: string)
    ensures |r| <= |name| && r == name[|name| - |r|..]
    ensures '/' !in name ==> r == name
    ensures '/' in name ==>
      var slash := |name| - |r| - 1;
      0 <= slash && name[slash] == '/' && '/' !in name[..slash]
  {
    var slash := IndexOf(name, "/");
    IndexOfChar(name, '/', 0);
    if slash == -1 then name
    else
      assert '/' !in name[..slash] by {
        forall k | 0 <= k < slash ensures name[..slash][k] != '/' {
          assert name[..slash][k] == name[k];
        }
      }
      name[slash + 1..]
  }

  /** What one record yields: a trigger, nothing (a tag with no `case`), or
      an exception that ends `ReadTriggers`. */
  datatype LoadStep = Loaded(trigger: Trigger) | Skipped | Aborted

  /** The `switch`: every tag but `PlayGameTrigger` has a case;
      `AcceptFriendRequestTrigger` is built without the loaded options. */
  function Construct(kind: TriggerType, name: string, options: TriggerOptions): (r: LoadStep)
    ensures r.Skipped? <==> kind == PlayGameTrigger
    ensures r.Loaded? <==> kind != PlayGameTrigger
    ensures r.Loaded? ==> r.trigger.kind == kind && r.trigger.name == name && r.trigger.replyEnabled
    ensures r.Loaded? && kind != AcceptFriendRequestTrigger ==> r.trigger.options == Some(options)
    ensures r.Loaded? && kind == AcceptFriendRequestTrigger ==> r.trigger.options == Some(DefaultOptions)
  {
    match kind
    case PlayGameTrigger => Skipped
    case AcceptFriendRequestTrigger => Loaded(NewDefaultTrigger(kind, name))
    case _ => Loaded(NewTrigger(kind, name, Some(options)))
  }

  /** One iteration of the `foreach` over the listed files. */
  function LoadOne(store: Store, file: string): (r: LoadStep)
    requires file in store
    ensures r.Aborted? <==>
      ExtractName(file).None? || ParseTag(TagText(ExtractName(file).value)).Unparseable?
    ensures r.Skipped? <==>
      && ExtractName(file).Some?
      && var tag := ParseTag(TagText(ExtractName(file).value));
         tag.Undefined? || tag == Member(PlayGameTrigger)
    ensures r.Loaded? ==>
      && ExtractName(file).Some?
      && r.trigger.name == ExtractName(file).value
      && ParseTag(TagText(r.trigger.name)) == Member(r.trigger.kind)
  {
    match ExtractName(file)
    case None => Aborted
    case Some(name) =>
      match ParseTag(TagText(name))
      case Unparseable => Aborted
      case Undefined(_) => Skipped
      case Member(kind) => Construct(kind, name, store[file])
  }

  /** The steps of the `foreach`, one per listed file, in listing order. */
  function Steps(store: Store, listing: seq<string>): (r: seq<LoadStep>)
    requires forall i :: 0 <= i < |listing| ==> listing[i] in store
    ensures |r| == |listing|
    ensures forall i :: 0 <= i < |listing| ==> r[i] == LoadOne(store, listing[i])
  {
    seq(|listing|, i requires 0 <= i < |listing| && listing[i] in store => LoadOne(store, listing[i]))
  }

  /** The triggers the steps build, in order: an independent filter. */
  function LoadedOf(steps: seq<LoadStep>): (r: seq<Trigger>)
    ensures |r| <= |steps|
    ensures forall j :: 0 <= j < |r| ==> exists i :: 0 <= i < |steps| && steps[i] == Loaded(r[j])
    ensures forall i :: 0 <= i < |steps| && steps[i].Loaded? ==> steps[i].trigger in r
  {
    if |steps| == 0 then []
    else
      var head := if steps[0].Loaded? then [steps[0].trigger] else [];
      var rest := LoadedOf(steps[1..]);
      assert forall i :: 1 <= i < |steps| ==> steps[i] == steps[1..][i - 1];
      assert forall j :: |head| <= j < |head| + |rest| ==> (head + rest)[j] == rest[j - |head|];
      head + rest
  }

  /** The filter keeps listing order: the triggers of a concatenation are
      those of its first part followed by those of its second. */
  lemma {:induction false} LoadedOfAppend(a: seq<LoadStep>, b: seq<LoadStep>)
    ensures LoadedOf(a + b) == LoadedOf(a) + LoadedOf(b)
  {
    if |a| == 0 {
      assert a + b == b;
    } else {
      assert (a + b)[1..] == a[1..] + b;
      LoadedOfAppend(a[1..], b);
    }
  }

  /** One step contributes its trigger when it loads one, and nothing
      otherwise. */
  lemma LoadedOfOne(step: LoadStep)
    ensures LoadedOf([step]) == if step.Loaded? then [step.trigger] else []
  {
    assert [step][1..] == [];
  }

  /** Runs the steps in order, collecting the loaded triggers, until one
      throws. */
  function Collect(steps: seq<LoadStep>): (r: Option<seq<Trigger>>)
    ensures r.None? <==> exists i :: 0 <= i < |steps| && steps[i].Aborted?
    ensures r.Some? ==> r.value == LoadedOf(steps)
  {
    if |steps| == 0 then Some([])
    else
      var rest := Collect(steps[1..]);
      assert forall i :: 1 <= i < |steps| ==> steps[i] == steps[1..][i - 1];
      match steps[0]
      case Aborted => None
      case Skipped => rest
      case Loaded(t) =>
        if rest.None? then None else Some([t] + rest.value)
  }

  /** `ReadTriggers()` over the files `Directory.EnumerateFiles` lists, in
      its order: the triggers built, or `None` when some record throws,
      which ends the whole call. */
  function ReadTriggers(store: Store, listing: seq<string>): (r: Option<seq<Trigger>>)
    requires forall i :: 0 <= i < |listing| ==> listing[i] in store
    ensures r.None? <==> exists i :: 0 <= i < |listing| && LoadOne(store, listing[i]).Aborted?
    ensures r.Some? ==> r.value == LoadedOf(Steps(store, listing))
    ensures r.Some? ==> |r.value| <= |listing|
    ensures r.Some? ==> forall j :: 0 <= j < |r.value| ==>
      r.value[j].replyEnabled && r.value[j].kind != PlayGameTrigger && r.value[j].options.Some?
  {
    var steps := Steps(store, listing);
    LoadedShapes(store, listing);
    assert (exists i :: 0 <= i < |listing| && LoadOne(store, listing[i]).Aborted?)
       <==> (exists i :: 0 <= i < |steps| && steps[i].Aborted?);
    Collect(steps)
  }

  /** The shape of every trigger the listed records build. */
  lemma LoadedShapes(store: Store, listing: seq<string>)
    requires forall i :: 0 <= i < |listing| ==> listing[i] in store
    ensures var ts := LoadedOf(Steps(store, listing));
      forall j :: 0 <= j < |ts| ==>
        ts[j].replyEnabled && ts[j].kind != PlayGameTrigger && ts[j].options.Some?
  {
    var steps := Steps(store, listing);
    var ts := LoadedOf(steps);
    forall j | 0 <= j < |ts|
      ensures ts[j].replyEnabled && ts[j].kind != PlayGameTrigger && ts[j].options.Some?
    {
      var i :| 0 <= i < |steps| && steps[i] == Loaded(ts[j]);
      LoadedShape(store, listing[i]);
    }
  }

  /** Every trigger a record yields is enabled, is not `PlayGameTrigger`
      and has options. */
  lemma LoadedShape(store: Store, file: string)
    requires file in store
    ensures LoadOne(store, file).Loaded? ==>
      var t := LoadOne(store, file).trigger;
      t.replyEnabled && t.kind != PlayGameTrigger && t.options.Some?
  {
  }

  /** A user name that cannot contain the marker's first occurrence in a
      record path. */
  predicate PlainUsername(username: string)
  {
    '/' !in username && !(|username| >= 8 && username[|username| - 8..] == "triggers")
  }

  /** For a plain user name and a dot-free trigger name, the name cut out
      of the saved path is the trigger's name. */
  lemma ExtractSavedName(username: string, name: string)
    requires PlainUsername(username) && '.' !in name
    ensures ExtractName(TriggerPath(username, name)) == Some(name)
  {
    var path := TriggerPath(username, name);
    var u := |username|;
    MarkerFirstAt(username, name);
    DotFirstAt(username, name);
    assert path[u + 10..u + 10 + |name|] == name;
  }

  /** The first `triggers/` of a saved path is the directory's. */
  lemma MarkerFirstAt(username: string, name: string)
    requires PlainUsername(username)
    ensures IndexOf(TriggerPath(username, name), Marker) == |username| + 1
  {
    var path := TriggerPath(username, name);
    var u := |username|;
    assert path[u + 1..u + 10] == Marker;
    forall i | 0 <= i < u + 1
      ensures !OccursAt(path, Marker, i)
    {
      NotMarkerAt(username, name, i);
    }
    IndexOfFirst(path, Marker, 0, u + 1);
  }

  /** No `triggers/` starts inside a plain user name or at its closing
      slash: the `/` it would end with falls on a user name character or
      inside `triggers`, and one ending exactly at the closing slash would
      need the user name to end with `triggers`. */
  lemma NotMarkerAt(username: string, name: string, i: int)
    requires PlainUsername(username)
    requires 0 <= i <= |username|
    ensures !OccursAt(TriggerPath(username, name), Marker, i)
  {
    var path := TriggerPath(username, name);
    var u := |username|;
    assert path == username + ("/triggers/" + name + ".json");
    assert Marker[8] == '/' && Marker[..8] == "triggers";
    if i + 9 <= |path| {
      assert path[i..i + 9][8] == path[i + 8];
      assert path[i..i + 9][..8] == path[i..i + 8];
      if i + 8 < u {
        assert path[i + 8] == username[i + 8];
      } else if i + 8 == u {
        assert path[i..i + 8] == username[u - 8..];
      } else {
        assert path[u + 1..u + 9] == "triggers";
        assert path[i + 8] == path[u + 1..u + 9][i + 7 - u];
      }
    }
  }

  /** After the directory, the first dot of a saved path ends the name. */
  lemma DotFirstAt(username: string, name: string)
    requires '.' !in name
    ensures |username| + 10 <= |TriggerPath(username, name)|
    ensures IndexOfFrom(TriggerPath(username, name), ".", |username| + 10) == |username| + 10 + |name|
  {
    var path := TriggerPath(username, name);
    var start := |username| + 10;
    var end := start + |name|;
    assert path == (username + "/triggers/") + name + ".json";
    assert |username + "/triggers/"| == start;
    assert path[start..end] == name;
    assert path[end..end + 1] == ".";
    forall i | start <= i < end
      ensures !OccursAt(path, ".", i)
    {
      assert path[i] == name[i - start];
      assert path[i..i + 1] == [path[i]];
    }
    IndexOfFirst(path, ".", start, end);
  }

  /** Saving a trigger whose name is its tag's name and reading the record
      back rebuilds it: same tag, same name, the saved record as options,
      replies enabled. `AcceptFriendRequestTrigger` gets default options
      instead; `PlayGameTrigger` is skipped. */
  lemma SaveThenRead(username: string, t: Trigger, store: Store)
    requires PlainUsername(username)
    requires '.' !in t.name && '/' !in t.name && ParseTag(t.name) == Member(t.kind)
    ensures var path := TriggerPath(username, t.name);
      var saved := SaveTrigger(username, t, store);
      && path in saved
      && ReadTriggers(saved, [path]) ==
         (if t.kind == PlayGameTrigger then Some([])
          else if t.kind == AcceptFriendRequestTrigger then Some([NewDefaultTrigger(t.kind, t.name)])
          else Some([NewTrigger(t.kind, t.name, Some(SavedRecord(t.options)))]))
  {
    LoadSaved(username, t, store);
    ReadOne(SaveTrigger(username, t, store), TriggerPath(username, t.name));
  }

  /** Reading a single listed record gives that record's outcome. */
  lemma ReadOne(store: Store, file: string)
    requires file in store
    ensures ReadTriggers(store, [file]) == match LoadOne(store, file)
      case Loaded(t) => Some([t])
      case Skipped => Some([])
      case Aborted => None
  {
    var step := LoadOne(store, file);
    assert Steps(store, [file]) == [step];
    LoadedOfOne(step);
    assert [file][0] == file;
  }

  /** The saved record loads as the constructed trigger. */
  lemma LoadSaved(username: string, t: Trigger, store: Store)
    requires PlainUsername(username)
    requires '.' !in t.name && '/' !in t.name && ParseTag(t.name) == Member(t.kind)
    ensures TriggerPath(username, t.name) in SaveTrigger(username, t, store)
    ensures LoadOne(SaveTrigger(username, t, store), TriggerPath(username, t.name))
         == Construct(t.kind, t.name, SavedRecord(t.options))
  {
    var path := TriggerPath(username, t.name);
    var saved := SaveTrigger(username, t, store);
    ExtractSavedName(username, t.name);
    assert TagText(t.name) == t.name;
    assert saved[path] == SavedRecord(t.options);
  }

  /** A single record's outcome. */
  lemma CollectOne(step: LoadStep)
    ensures Collect([step]) == match step
      case Loaded(t) => Some([t])
      case Skipped => Some([])
      case Aborted => None
  {
    assert [step][1..] == [];
    if step.Loaded? {
      assert [step.trigger] + [] == [step.trigger];
    }
  }

  /** The full round trip for an ordinary trigger with non-null options:
      the options come back field for field. */
  lemma RoundTripOptions(username: string, t: Trigger, store: Store)
    requires PlainUsername(username)
    requires '.' !in t.name && '/' !in t.name && ParseTag(t.name) == Member(t.kind)
    requires t.kind != PlayGameTrigger && t.kind != AcceptFriendRequestTrigger && t.options.Some?
    ensures ReadTriggers(SaveTrigger(username, t, store), [TriggerPath(username, t.name)])
         == Some([t.(replyEnabled := true)])
  {
    SaveThenRead(username, t, store);
  }

  /** Records read in order: one that builds a trigger followed by one whose
      tag has no `case` yields exactly the first trigger; if the second
      record throws instead, nothing is returned at all. */
  lemma ValidThenSkippedOrBroken(t: Trigger, second: LoadStep)
    requires !second.Loaded?
    ensures second.Skipped? ==> Collect([Loaded(t), second]) == Some([t])
    ensures second.Aborted? ==> Collect([Loaded(t), second]) == None
  {
    assert [Loaded(t), second][1..] == [second];
    assert [second][1..] == [];
    assert [t] + [] == [t];
  }
}

=== FILE: text.dfy ===
/** String operations the triggers use: ASCII lower-casing, prefix and
    sub-string search, `String.Split(' ')`, and `Convert.ToUInt64`. */
module Text {
  import opened Common

  // ---------------------------------------------------------------------
  // Case and search
  // ---------------------------------------------------------------------

  /** `Char.ToLower` restricted to ASCII letters. */
  function LowerChar(c: char): char
  {
    if 'A' <= c <= 'Z' then (c as int + 32) as char else c
  }

  /** `String.ToLower`, letter by letter. */
  function Lower(s: string): (r: string)
    ensures |r| == |s|
    ensures forall i :: 0 <= i < |s| ==> r[i] == LowerChar(s[i])
  {
    seq(|s|, i requires 0 <= i < |s| => LowerChar(s[i]))
  }

  predicate IsPrefix(p: string, s: string)
  {
    |p| <= |s| && s[..|p|] == p
  }

  predicate OccursAt(s: string, pat: string, i: int)
  {
    0 <= i && i + |pat| <= |s| && s[i..i + |pat|] == pat
  }

  /** `s.IndexOf(pat, from)` with ordinal comparison: the first position at
      or after `from` where `pat` occurs, or -1. */
  function IndexOfFrom(s: string, pat: string, from: nat): (r: int)
    requires from <= |s|
    ensures r == -1 || from <= r <= |s| - |pat|
    ensures r == -1 ==> forall i :: from <= i <= |s| ==> !OccursAt(s, pat, i)
    ensures r >= 0 ==> OccursAt(s, pat, r)
    ensures r >= 0 ==> forall i :: from <= i < r ==> !OccursAt(s, pat, i)
    decreases |s| - from
  {
    if from + |pat| > |s| then -1
    else if s[from..from + |pat|] == pat then from
    else IndexOfFrom(s, pat, from + 1)
  }

  /** The search finds the first occurrence at or after `from`. */
  lemma IndexOfFirst(s: string, pat: string, from: nat, k: nat)
    requires from <= k && OccursAt(s, pat, k)
    requires forall i :: from <= i < k ==> !OccursAt(s, pat, i)
    ensures IndexOfFrom(s, pat, from) == k
  {
  }

  /** Searching for one character: the first position at or after `from`
      holding it, or -1 when none does. */
  lemma IndexOfChar(s: string, c: char, from: nat)
    requires from <= |s|
    ensures var r := IndexOfFrom(s, [c], from);
      && (r == -1 ==> forall i :: from <= i < |s| ==> s[i] != c)
      && (r >= 0 ==> from <= r < |s| && s[r] == c && forall i :: from <= i < r ==> s[i] != c)
  {
    var r := IndexOfFrom(s, [c], from);
    forall i | from <= i < |s| && (r == -1 || i < r) ensures s[i] != c {
      assert !OccursAt(s, [c], i);
      assert s[i..i + 1] == [s[i]];
    }
    if r >= 0 {
      assert s[r..r + 1] == [c];
    }
  }

  /** `s.IndexOf(pat)`. */
  function IndexOf(s: string, pat: string): int
  {
    IndexOfFrom(s, pat, 0)
  }

  // ---------------------------------------------------------------------
  // String.Split(' ') and its inverse String.Join
  // ---------------------------------------------------------------------

  /** `s.Split(sep)`: every maximal run between separators is a token, empty
      runs included, so the result is never empty. */
  function Split(s: string, sep: char): (r: seq<string>)
    ensures |r| >= 1
    decreases |s|
  {
    if |s| == 0 then [""]
    else
      var rest := Split(s[1..], sep);
      if s[0] == sep then [""] + rest
      else [[s[0]] + rest[0]] + rest[1..]
  }

  /** `String.Join(sep, tokens)`. */
  function Join(tokens: seq<string>, sep: char): string
    requires |tokens| >= 1
  {
    if |tokens| == 1 then tokens[0]
    else tokens[0] + [sep] + Join(tokens[1..], sep)
  }

  predicate NoSep(tokens: seq<string>, sep: char)
  {
    forall i :: 0 <= i < |tokens| ==> sep !in tokens[i]
  }

  /** Joining the tokens again gives back the message. */
  lemma {:induction false} JoinSplit(s: string, sep: char)
    ensures Join(Split(s, sep), sep) == s
    decreases |s|
  {
    if |s| > 0 {
      var rest := Split(s[1..], sep);
      JoinSplit(s[1..], sep);
      if s[0] == sep {
        assert ([""] + rest)[1..] == rest;
      } else if |rest| > 1 {
        var r := [[s[0]] + rest[0]] + rest[1..];
        assert r[1..] == rest[1..];
        assert Join(rest, sep) == rest[0] + [sep] + Join(rest[1..], sep);
        assert s == [s[0]] + s[1..];
      } else {
        assert s == [s[0]] + s[1..];
      }
    }
  }

  /** No token contains the separator. */
  lemma {:induction false} SplitTokensNoSep(s: string, sep: char)
    ensures NoSep(Split(s, sep), sep)
    decreases |s|
  {
    if |s| > 0 {
      SplitTokensNoSep(s[1..], sep);
      var rest := Split(s[1..], sep);
      if s[0] != sep {
        var r := [[s[0]] + rest[0]] + rest[1..];
        forall i | 0 <= i < |r|
          ensures sep !in r[i]
        {
          if i == 0 {
            assert sep !in rest[0];
          } else {
            assert r[i] == rest[i];
          }
        }
      } else {
        var r := [""] + rest;
        forall i | 0 <= i < |r|
          ensures sep !in r[i]
        {
          if i > 0 { assert r[i] == rest[i - 1]; }
        }
      }
    }
  }

  /** A message splits into more than one token exactly when it contains
      the separator. */
  lemma {:induction false} SplitSingle(s: string, sep: char)
    ensures |Split(s, sep)| == 1 <==> sep !in s
    ensures sep !in s ==> Split(s, sep) == [s]
    decreases |s|
  {
    if |s| > 0 {
      SplitSingle(s[1..], sep);
      assert s == [s[0]] + s[1..];
      assert sep in s <==> s[0] == sep || sep in s[1..];
    }
  }

  /** Splitting a separator-free head glued to a tail extends the tail's
      first token. */
  lemma {:induction false} SplitAfterHead(a: string, b: string, sep: char)
    requires sep !in a
    ensures Split(a + b, sep) == [a + Split(b, sep)[0]] + Split(b, sep)[1..]
    decreases |a|
  {
    if |a| > 0 {
      SplitAfterHead(a[1..], b, sep);
      var bs := Split(b, sep);
      var rest := Split(a[1..] + b, sep);
      assert (a + b)[0] == a[0] != sep;
      assert (a + b)[1..] == a[1..] + b;
      assert rest[0] == a[1..] + bs[0] && rest[1..] == bs[1..];
      assert [a[0]] + (a[1..] + bs[0]) == a + bs[0];
    } else {
      assert a + b == b;
      assert a + Split(b, sep)[0] == Split(b, sep)[0];
      assert Split(b, sep) == [Split(b, sep)[0]] + Split(b, sep)[1..];
    }
  }

  /** Splitting undoes joining separator-free tokens. */
  lemma {:induction false} SplitJoin(tokens: seq<string>, sep: char)
    requires |tokens| >= 1
    requires NoSep(tokens, sep)
    ensures Split(Join(tokens, sep), sep) == tokens
    decreases |tokens|
  {
    if |tokens| == 1 {
      assert sep !in tokens[0];
      SplitSingle(tokens[0], sep);
      assert tokens == [tokens[0]];
    } else {
      var tail := Join(tokens[1..], sep);
      assert NoSep(tokens[1..], sep) by {
        forall i | 0 <= i < |tokens[1..]| ensures sep !in tokens[1..][i] {
          assert tokens[1..][i] == tokens[i + 1];
        }
      }
      SplitJoin(tokens[1..], sep);
      assert sep !in tokens[0];
      SplitAfterHead(tokens[0], [sep] + tail, sep);
      assert tokens[0] + [sep] + tail == tokens[0] + ([sep] + tail);
      assert ([sep] + tail)[1..] == tail;
      assert Split([sep] + tail, sep) == [""] + tokens[1..];
      assert Join(tokens, sep) == tokens[0] + ([sep] + tail);
      assert tokens[0] + "" == tokens[0];
      assert tokens == [tokens[0]] + tokens[1..];
    }
  }

  // ---------------------------------------------------------------------
  // Convert.ToUInt64(string)
  // ---------------------------------------------------------------------

  /** The white space `NumberStyles.Integer` skips around a number. */
  predicate IsWhite(c: char)
  {
    c == ' ' || '\t' <= c <= '\r'
  }

  predicate IsDigit(c: char)
  {
    '0' <= c <= '9'
  }

  predicate AllDigits(s: string)
  {
    forall i :: 0 <= i < |s| ==> IsDigit(s[i])
  }

  /** The value of a string of decimal digits, most significant first. */
  function DigitsValue(s: string): nat
    requires AllDigits(s)
    decreases |s|
  {
    if |s| == 0 then 0
    else DigitsValue(s[..|s| - 1]) * 10 + (s[|s| - 1] as int - '0' as int)
  }

  /** `s` without its leading white space. */
  function TrimStartWhite(s: string): string
    decreases |s|
  {
    if |s| > 0 && IsWhite(s[0]) then TrimStartWhite(s[1..]) else s
  }

  /** `s` without its trailing white space. */
  function TrimEndWhite(s: string): string
    decreases |s|
  {
    if |s| > 0 && IsWhite(s[|s| - 1]) then TrimEndWhite(s[..|s| - 1]) else s
  }

  /** Trimming the start leaves a suffix that starts with no white space. */
  lemma {:induction false} TrimStartSuffix(s: string)
    ensures var r := TrimStartWhite(s);
      |r| <= |s| && r == s[|s| - |r|..] && (|r| > 0 ==> !IsWhite(r[0]))
    ensures var r := TrimStartWhite(s);
      forall i :: 0 <= i < |s| - |r| ==> IsWhite(s[i])
    decreases |s|
  {
    if |s| > 0 && IsWhite(s[0]) {
      TrimStartSuffix(s[1..]);
      var r := TrimStartWhite(s);
      assert s[1..][|s| - 1 - |r|..] == s[|s| - |r|..];
      assert forall i :: 1 <= i < |s| - |r| ==> s[i] == s[1..][i - 1];
    }
  }

  /** Trimming the end leaves a prefix that ends with no white space. */
  lemma {:induction false} TrimEndPrefix(s: string)
    ensures var r := TrimEndWhite(s);
      |r| <= |s| && r == s[..|r|] && (|r| > 0 ==> !IsWhite(r[|r| - 1]))
    ensures var r := TrimEndWhite(s);
      forall i :: |r| <= i < |s| ==> IsWhite(s[i])
    decreases |s|
  {
    if |s| > 0 && IsWhite(s[|s| - 1]) {
      TrimEndPrefix(s[..|s| - 1]);
      var r := TrimEndWhite(s);
      assert s[..|s| - 1][..|r|] == s[..|r|];
      assert forall i :: |r| <= i < |s| - 1 ==> s[i] == s[..|s| - 1][i];
    }
  }

  /** `s` without the white space around it. */
  function Trimmed(s: string): string
  {
    TrimEndWhite(TrimStartWhite(s))
  }

  /** A trimmed numeral without its one leading sign. */
  function Unsigned(t: string): string
  {
    if |t| > 0 && (t[0] == '+' || t[0] == '-') then t[1..] else t
  }

  /** The text `Convert.ToUInt64` reads digits from: `s` without the
      surrounding white space and without one leading sign. */
  function NumeralBody(s: string): string
  {
    Unsigned(Trimmed(s))
  }

  /** `Convert.ToUInt64` on the trimmed text `t`. */
  function ReadTrimmed(t: string): (r: Option<U64>)
    ensures r.Some? ==> |Unsigned(t)| > 0 && AllDigits(Unsigned(t)) && r.value == DigitsValue(Unsigned(t))
    ensures (&& |Unsigned(t)| > 0 && AllDigits(Unsigned(t)) && DigitsValue(Unsigned(t)) < U64Limit
             && !(|t| > 0 && t[0] == '-' && DigitsValue(Unsigned(t)) != 0)) ==> r.Some?
  {
    var negative := |t| > 0 && t[0] == '-';
    var digits := Unsigned(t);
    if |digits| == 0 || !AllDigits(digits) then None
    else
      var v := DigitsValue(digits);
      if v >= U64Limit || (negative && v != 0) then None else Some(v)
  }

  /** `Convert.ToUInt64(s)` for a non-null `s`: optional surrounding white
      space, an optional `+` or `-` sign, then at least one decimal digit.
      `None` is the `FormatException` or `OverflowException` the call
      throws; a minus sign is accepted only on a zero value. */
  function ParseU64(s: string): (r: Option<U64>)
    ensures r.Some? ==> |NumeralBody(s)| > 0 && AllDigits(NumeralBody(s)) && r.value == DigitsValue(NumeralBody(s))
    ensures (&& |NumeralBody(s)| > 0 && AllDigits(NumeralBody(s)) && DigitsValue(NumeralBody(s)) < U64Limit
             && !(|Trimmed(s)| > 0 && Trimmed(s)[0] == '-' && DigitsValue(NumeralBody(s)) != 0)) ==> r.Some?
  {
    ReadTrimmed(Trimmed(s))
  }

  /** Every character of the numeral body comes from `s`. */
  lemma NumeralBodyFrom(s: string, i: nat)
    requires i < |NumeralBody(s)|
    ensures exists j :: 0 <= j < |s| && s[j] == NumeralBody(s)[i]
  {
    var t1 := TrimStartWhite(s);
    var t := TrimEndWhite(t1);
    TrimStartSuffix(s);
    TrimEndPrefix(t1);
    var k := |s| - |t1|;
    if |t| > 0 && (t[0] == '+' || t[0] == '-') {
      assert NumeralBody(s)[i] == t[i + 1] == t1[i + 1] == s[k + i + 1];
    } else {
      assert NumeralBody(s)[i] == t[i] == t1[i] == s[k + i];
    }
  }

  /** A token without a single decimal digit, the empty token included, is
      rejected. */
  lemma ParseNeedsDigit(s: string)
    requires forall j :: 0 <= j < |s| ==> !IsDigit(s[j])
    ensures ParseU64(s) == None
  {
    var d := NumeralBody(s);
    if |d| > 0 && AllDigits(d) {
      NumeralBodyFrom(s, 0);
    }
  }

  /** The decimal numeral of `n`, without leading zeros. */
  function DecimalText(n: nat): (r: string)
    ensures |r| >= 1 && AllDigits(r)
    decreases n
  {
    var d := [('0' as int + n % 10) as char];
    if n < 10 then d else DecimalText(n / 10) + d
  }

  /** Reading the numeral back gives the number. */
  lemma {:induction false} DecimalTextValue(n: nat)
    ensures DigitsValue(DecimalText(n)) == n
    decreases n
  {
    var r := DecimalText(n);
    if n >= 10 {
      DecimalTextValue(n / 10);
      assert r[..|r| - 1] == DecimalText(n / 10);
    }
  }

  /** `Convert.ToUInt64` accepts the decimal numeral of every `ulong`. */
  lemma ParseDecimalText(n: U64)
    ensures ParseU64(DecimalText(n)) == Some(n)
  {
    var s := DecimalText(n);
    DecimalTextValue(n);
    DigitsAreTheirBody(s);
  }

  /** A numeral made of digits only has nothing to trim and no sign. */
  lemma DigitsAreTheirBody(s: string)
    requires |s| > 0 && AllDigits(s)
    ensures NumeralBody(s) == s
  {
    assert IsDigit(s[0]) && IsDigit(s[|s| - 1]);
    NoWhiteToTrim(s);
    assert s[0] != '+' && s[0] != '-';
  }

  /** Trimming leaves a string alone that starts and ends with a non-white
      character. */
  lemma NoWhiteToTrim(s: string)
    requires |s| > 0 && !IsWhite(s[0]) && !IsWhite(s[|s| - 1])
    ensures Trimmed(s) == s
  {
    assert TrimStartWhite(s) == s;
  }
}

=== FILE: trigger_kinds.dfy ===
/** The trigger type tag and `Enum.Parse` of its textual form. */
module TriggerKinds {
  import opened Common
  import opened Text

  /** One tag per concrete trigger kind, in declaration order (the enum's
      underlying values are 0 to 17). */
  datatype TriggerType =
    | AcceptChatInviteTrigger
    | AcceptFriendRequestTrigger
    | AutojoinChatTrigger
    | BanCheckTrigger
    | BanTrigger
    | ChatReplyTrigger
    | DoormatTrigger
    | IsUpTrigger
    | KickTrigger
    | LeaveChatTrigger
    | LinkNameTrigger
    | LockChatTrigger
    | ModerateChatTrigger
    | PlayGameTrigger
    | UnbanTrigger
    | UnlockChatTrigger
    | UnmoderateChatTrigger
    | WeatherTrigger

  /** The members in declaration order: `AllTypes[v]` has underlying value `v`. */
  const AllTypes: seq<TriggerType> := [
    AcceptChatInviteTrigger, AcceptFriendRequestTrigger, AutojoinChatTrigger,
    BanCheckTrigger, BanTrigger, ChatReplyTrigger, DoormatTrigger, IsUpTrigger,
    KickTrigger, LeaveChatTrigger, LinkNameTrigger, LockChatTrigger,
    ModerateChatTrigger, PlayGameTrigger, UnbanTrigger, UnlockChatTrigger,
    UnmoderateChatTrigger, WeatherTrigger]

  /** The member's name, as `ToString` prints it. */
  function TypeName(k: TriggerType): string
  {
    match k
    case AcceptChatInviteTrigger => "AcceptChatInviteTrigger"
    case AcceptFriendRequestTrigger => "AcceptFriendRequestTrigger"
    case AutojoinChatTrigger => "AutojoinChatTrigger"
    case BanCheckTrigger => "BanCheckTrigger"
    case BanTrigger => "BanTrigger"
    case ChatReplyTrigger => "ChatReplyTrigger"
    case DoormatTrigger => "DoormatTrigger"
    case IsUpTrigger => "IsUpTrigger"
    case KickTrigger => "KickTrigger"
    case LeaveChatTrigger => "LeaveChatTrigger"
    case LinkNameTrigger => "LinkNameTrigger"
    case LockChatTrigger => "LockChatTrigger"
    case ModerateChatTrigger => "ModerateChatTrigger"
    case PlayGameTrigger => "PlayGameTrigger"
    case UnbanTrigger => "UnbanTrigger"
    case UnlockChatTrigger => "UnlockChatTrigger"
    case UnmoderateChatTrigger => "UnmoderateChatTrigger"
    case WeatherTrigger => "WeatherTrigger"
  }

  /** What `(TriggerType)Enum.Parse(typeof(TriggerType), s)` produces: a
      named member, a numeric value outside the declared members (a valid
      cast that no `case` label matches), or an exception. */
  datatype TagParse = Member(tag: TriggerType) | Undefined(value: int) | Unparseable

  /** Exclusive bound of the enum's underlying `int`. */
  const IntLimit: int := 0x8000_0000

  /** The only member whose name can equal `s`: member names differ in
      their length, first letter or second letter. */
  function Candidate(s: string): Option<TriggerType>
  {
    if |s| < 2 then None
    else
      var c, d, n := s[0], s[1], |s|;
      if c == 'A' && n == 23 then Some(AcceptChatInviteTrigger)
      else if c == 'A' && n == 26 then Some(AcceptFriendRequestTrigger)
      else if c == 'A' && n == 19 then Some(AutojoinChatTrigger)
      else if c == 'B' && n == 15 then Some(BanCheckTrigger)
      else if c == 'B' && n == 10 then Some(BanTrigger)
      else if c == 'C' && n == 16 then Some(ChatReplyTrigger)
      else if c == 'D' && n == 14 then Some(DoormatTrigger)
      else if c == 'I' && n == 11 then Some(IsUpTrigger)
      else if c == 'K' && n == 11 then Some(KickTrigger)
      else if c == 'L' && n == 16 then Some(LeaveChatTrigger)
      else if c == 'L' && d == 'i' && n == 15 then Some(LinkNameTrigger)
      else if c == 'L' && d == 'o' && n == 15 then Some(LockChatTrigger)
      else if c == 'M' && n == 19 then Some(ModerateChatTrigger)
      else if c == 'P' && n == 15 then Some(PlayGameTrigger)
      else if c == 'U' && n == 12 then Some(UnbanTrigger)
      else if c == 'U' && n == 17 then Some(UnlockChatTrigger)
      else if c == 'U' && n == 21 then Some(UnmoderateChatTrigger)
      else if c == 'W' && n == 14 then Some(WeatherTrigger)
      else None
  }

  /** Each name selects its own member, so names are pairwise distinct. */
  lemma CandidateOfName(k: TriggerType)
    ensures Candidate(TypeName(k)) == Some(k)
    ensures !IsDigit(TypeName(k)[0])
  {
    match k
    case AcceptChatInviteTrigger =>
    case AcceptFriendRequestTrigger =>
    case AutojoinChatTrigger =>
    case BanCheckTrigger =>
    case BanTrigger =>
    case ChatReplyTrigger =>
    case DoormatTrigger =>
    case IsUpTrigger =>
    case KickTrigger =>
    case LeaveChatTrigger =>
    case LinkNameTrigger =>
    case LockChatTrigger =>
    case ModerateChatTrigger =>
    case PlayGameTrigger =>
    case UnbanTrigger =>
    case UnlockChatTrigger =>
    case UnmoderateChatTrigger =>
    case WeatherTrigger =>
  }

  /** `Enum.Parse` on the tag text, case-sensitively: a member name, or a
      decimal numeral read as the underlying value. */
  function ParseTag(s: string): (r: TagParse)
    ensures r.Member? ==> TypeName(r.tag) == s || (|s| > 0 && AllDigits(s) && DigitsValue(s) < |AllTypes| && AllTypes[DigitsValue(s)] == r.tag)
    ensures r.Undefined? ==> AllDigits(s) && r.value == DigitsValue(s) && |AllTypes| <= r.value < IntLimit
    ensures r.Unparseable? ==> forall k :: TypeName(k) != s
    ensures |s| > 0 && AllDigits(s) && DigitsValue(s) < |AllTypes| ==> r == Member(AllTypes[DigitsValue(s)])
    ensures |s| > 0 && AllDigits(s) && |AllTypes| <= DigitsValue(s) < IntLimit ==> r == Undefined(DigitsValue(s))
    ensures |s| > 0 && AllDigits(s) && IntLimit <= DigitsValue(s) ==> r.Unparseable?
  {
    if |s| > 0 && AllDigits(s) then
      var v := DigitsValue(s);
      if v < |AllTypes| then Member(AllTypes[v])
      else if v < IntLimit then Undefined(v)
      else
        NamesAreNotNumerals(s);
        Unparseable
    else
      match Candidate(s)
      case Some(k) =>
        if TypeName(k) == s then Member(k)
        else
          NameHasItsCandidate(s);
          Unparseable
      case None =>
        NameHasItsCandidate(s);
        Unparseable
  }

  lemma NamesAreNotNumerals(s: string)
    requires |s| > 0 && AllDigits(s)
    ensures forall k :: TypeName(k) != s
  {
    forall k ensures TypeName(k) != s {
      CandidateOfName(k);
      assert IsDigit(s[0]);
    }
  }

  lemma NameHasItsCandidate(s: string)
    ensures forall k :: TypeName(k) == s ==> Candidate(s) == Some(k)
  {
    forall k | TypeName(k) == s ensures Candidate(s) == Some(k) {
      CandidateOfName(k);
    }
  }

  /** Every member's name parses back to that member. */
  lemma ParseTypeName(k: TriggerType)
    ensures ParseTag(TypeName(k)) == Member(k)
  {
    CandidateOfName(k);
  }
}

=== FILE: unban.dfy ===
/** `UnbanTrigger`: on a chat message that starts with its command, unban
    the member whose id is the second word, in the room of the message. */
module Unban {
  import opened Common
  import opened Text
  import opened Config
  import opened Hooks
  import opened Commands
  import opened Cooldown
  import opened Guards
  import opened Dispatch
  import opened DispatchLaws

  /** `Respond(roomID, userID, message)`. Reading `Options.Command` on a null
      options record, indexing `query[1]` in a one-word message, and
      `Convert.ToUInt64` on a token that is not a `ulong` all throw; the
      `query[1] != null` test always passes, since `Split` yields no nulls. */
  function Respond(options: Option<TriggerOptions>, room: SteamId, user: SteamId, message: string): (r: HookOutcome)
    ensures r.Returned? && r.value ==> |r.emitted| == 1 && r.emitted[0].UnbanMember? && r.emitted[0].room == room
    ensures !(r.Returned? && r.value) ==> r.emitted == []
    ensures r == Returned(false, []) <==>
      options.Some? && StripCommand(Some(message), options.value.command).None?
    ensures r.Returned? && r.value ==>
      && options.Some?
      && StripCommand(Some(message), options.value.command) == Some(Split(message, ' '))
      && |Split(message, ' ')| >= 2
      && ParseU64(Split(message, ' ')[1]) == Some(r.emitted[0].member)
    ensures options.Some? && StripCommand(Some(message), options.value.command).Some?
            && |Split(message, ' ')| >= 2 && ParseU64(Split(message, ' ')[1]).Some? ==>
      r == Returned(true, [UnbanMember(room, ParseU64(Split(message, ' ')[1]).value)])
  {
    match options
    case None => Threw([])
    case Some(o) =>
      match StripCommand(Some(message), o.command)
      case None => Returned(false, [])
      case Some(query) =>
        if |query| < 2 then Threw([])
        else
          match ParseU64(query[1])
          case None => Threw([])
          case Some(id) => Returned(true, [UnbanMember(room, id)])
  }

  /** The hooks of an `UnbanTrigger`: only `respondToChatMessage` is
      overridden; every other hook is the base default. */
  function UnbanHooks(options: Option<TriggerOptions>, call: HookCall): (r: HookOutcome)
    ensures !call.RespondToChatMessage? ==> r == BaseHook(call)
    ensures call.RespondToChatMessage? ==> r == Respond(options, call.room, call.chatter, call.message)
  {
    match call
    case RespondToChatMessage(room, chatter, message) => Respond(options, room, chatter, message)
    case _ => BaseHook(call)
  }

  /** The hooks bound to the trigger's own options record. */
  function UnbanStrategy(t: Trigger): HookCall -> HookOutcome
  {
    call => UnbanHooks(t.options, call)
  }

  /** An event delivered to an `UnbanTrigger`: at most one action, always an
      unban in the room of a chat message, and only when the handler
      answers `true`. */
  function DeliverToUnban(t: Trigger, ev: Event): (d: Delivery)
    ensures |d.actions| <= 1
    ensures d.actions != [] ==>
      && ev.ChatMessage? && d.outcome == Answered(true)
      && d.actions[0].UnbanMember? && d.actions[0].room == ev.room
  {
    var d := Deliver(t, ev, UnbanStrategy(t));
    UnbanDeliveryShape(t, ev);
    d
  }

  lemma UnbanDeliveryShape(t: Trigger, ev: Event)
    ensures var d := Deliver(t, ev, UnbanStrategy(t));
      && |d.actions| <= 1
      && (d.actions != [] ==>
            && ev.ChatMessage? && d.outcome == Answered(true)
            && d.actions[0].UnbanMember? && d.actions[0].room == ev.room)
  {
    var d := Deliver(t, ev, UnbanStrategy(t));
    if d.called.Some? {
      var call := HandlerFor(ev).call;
      var h := UnbanHooks(t.options, call);
      assert d.actions == h.emitted;
      if d.actions != [] {
        assert call.RespondToChatMessage?;
        assert ev.ChatMessage?;
        assert HookSucceeded(h);
        HandledIffHookSucceeded(t, ev, UnbanStrategy(t));
      }
    }
  }

  /** `command word` with `word` the decimal numeral of `id` unbans `id` in
      the message's room, whoever sent it. */
  lemma UnbanByCommand(o: TriggerOptions, room: SteamId, user: SteamId, command: string, id: U64)
    requires o.command == Some(command) && ' ' !in command
    ensures Respond(Some(o), room, user, command + " " + DecimalText(id)) == Returned(true, [UnbanMember(room, id)])
  {
    var word := DecimalText(id);
    var message := command + " " + word;
    assert ' ' !in word by {
      assert AllDigits(word);
    }
    assert Join([command, word], ' ') == message;
    SplitJoin([command, word], ' ');
    CommandPrefixMatches(command, " " + word);
    assert command + (" " + word) == message;
    ParseDecimalText(id);
  }

  /** A matching message without a second word makes `query[1]` throw. */
  lemma OneWordThrows(o: TriggerOptions, room: SteamId, user: SteamId, message: string)
    requires StripCommand(Some(message), o.command).Some?
    requires ' ' !in message
    ensures Respond(Some(o), room, user, message) == Threw([])
  {
    SplitSingle(message, ' ');
  }

  /** A second word that `Convert.ToUInt64` rejects makes the hook throw. */
  lemma BadIdThrows(o: TriggerOptions, room: SteamId, user: SteamId, message: string)
    requires StripCommand(Some(message), o.command).Some?
    requires |Split(message, ' ')| >= 2 && ParseU64(Split(message, ' ')[1]).None?
    ensures Respond(Some(o), room, user, message) == Threw([])
  {
  }

  /** Through `OnChatMessage`, a throwing `Respond` answers `false` with no
      unban and no cooldown. */
  lemma ThrowingRespondIsNotHandled(t: Trigger, room: SteamId, chatter: SteamId, message: string)
    requires t.options.Some?
    requires Respond(t.options, room, chatter, message).Threw?
    ensures var d := DeliverToUnban(t, ChatMessage(room, chatter, message));
      d.outcome == Answered(false) && d.actions == [] && d.trigger == t
  {
    var ev := ChatMessage(room, chatter, message);
    assert UnbanStrategy(t)(HandlerFor(ev).call) == Respond(t.options, room, chatter, message);
  }

  /** Every event other than a chat message reaches a base hook: nothing is
      sent, and only the lifecycle events answer `true`. */
  lemma OtherEventsUseBaseHooks(t: Trigger, ev: Event)
    requires !ev.ChatMessage?
    ensures var d := DeliverToUnban(t, ev);
      && d.actions == []
      && (d.outcome == Answered(true) ==> ev.Load? || ev.LoggedOn? || ev.LoggedOff?)
  {
    var d := Deliver(t, ev, UnbanStrategy(t));
    if d.called.Some? {
      assert UnbanStrategy(t)(d.called.value) == BaseHook(d.called.value);
    }
    HandledIffHookSucceeded(t, ev, UnbanStrategy(t));
  }

  /** An admitted chat message whose `Respond` unbans answers `true`,
      performs that one unban, and engages the cooldown. */
  lemma AdmittedUnban(t: Trigger, o: TriggerOptions, room: SteamId, chatter: SteamId, message: string, id: U64)
    requires t.options == Some(o)
    requires t.replyEnabled && RandomRoll(o) && CheckUser(o, chatter) && !CheckIgnores(o, chatter, Some(room))
    requires Respond(Some(o), room, chatter, message) == Returned(true, [UnbanMember(room, id)])
    ensures DeliverToUnban(t, ChatMessage(room, chatter, message)) ==
      Delivery(Answered(true), t.(replyEnabled := !PositiveTimeout(o)),
               [UnbanMember(room, id)], Some(RespondToChatMessage(room, chatter, message)))
  {
    var ev := ChatMessage(room, chatter, message);
    assert UnbanStrategy(t)(RespondToChatMessage(room, chatter, message))
        == Returned(true, [UnbanMember(room, id)]);
    GuardsMatchAdmits(t, ev);
  }

  /** `!unban 76561197960287930` in room `room`, with every guard passing,
      unbans 76561197960287930 there and answers `true`. */
  lemma UnbanScenario(t: Trigger, o: TriggerOptions, room: SteamId, chatter: SteamId)
    requires t.options == Some(o) && o.command == Some("!unban")
    requires t.replyEnabled && RandomRoll(o) && CheckUser(o, chatter) && !CheckIgnores(o, chatter, Some(room))
    ensures DeliverToUnban(t, ChatMessage(room, chatter, "!unban 76561197960287930")) ==
      Delivery(Answered(true), t.(replyEnabled := !PositiveTimeout(o)),
               [UnbanMember(room, 76561197960287930)],
               Some(RespondToChatMessage(room, chatter, "!unban 76561197960287930")))
  {
    ScenarioMessage();
    UnbanByCommand(o, room, chatter, "!unban", 76561197960287930);
    AdmittedUnban(t, o, room, chatter, "!unban 76561197960287930", 76561197960287930);
  }

  /** The scenario's message is the command, a space and the id's numeral. */
  lemma ScenarioMessage()
    ensures "!unban" + " " + DecimalText(76561197960287930) == "!unban 76561197960287930"
  {
    ScenarioNumeral();
  }

  /** The numeral of the scenario's id, one digit at a time (the verifier
      does not unfold `DecimalText` seventeen times on its own). */
  lemma ScenarioNumeral()
    ensures DecimalText(76561197960287930) == "76561197960287930"
  {
    assert DecimalText(7) == "7";
    assert DecimalText(76) == DecimalText(7) + "6";
    assert DecimalText(765) == DecimalText(76) + "5";
    assert DecimalText(7656) == DecimalText(765) + "6";
    assert DecimalText(76561) == DecimalText(7656) + "1";
    assert DecimalText(765611) == DecimalText(76561) + "1";
    assert DecimalText(7656119) == DecimalText(765611) + "9";
    assert DecimalText(76561197) == DecimalText(7656119) + "7";
    assert DecimalText(765611979) == DecimalText(76561197) + "9";
    assert DecimalText(7656119796) == DecimalText(765611979) + "6";
    assert DecimalText(76561197960) == DecimalText(7656119796) + "0";
    assert DecimalText(765611979602) == DecimalText(76561197960) + "2";
    assert DecimalText(7656119796028) == DecimalText(765611979602) + "8";
    assert DecimalText(76561197960287) == DecimalText(7656119796028) + "7";
    assert DecimalText(765611979602879) == DecimalText(76561197960287) + "9";
    assert DecimalText(7656119796028793) == DecimalText(765611979602879) + "3";
    assert DecimalText(76561197960287930) == DecimalText(7656119796028793) + "0";
  }
}
